=== FILE: README.md ===
# Mandrill client core, modelled in Dafny

A Dafny model of the core of the Go client for the Mandrill transactional
mail API (package `mandrill`). It covers four pieces of logic, with proofs:

- **The request executor** `execute` (`mandrill.go`). It rejects a nil
  payload, marshals the payload, and posts it to `APIBaseURL + path` with four
  fixed headers. It decompresses the body when `Content-Encoding` is exactly
  `gzip`. It then dispatches on the HTTP status: 200 returns the body bytes;
  any other status decodes the body as an `*APIError`, or reports that it
  could not. The JSON codec, gzip, the URL check of `http.NewRequest` and the
  HTTP client are collaborators, passed in as function-valued fields of
  `Executor.Env`. Each may fail.
- **The error-name classifier** `(*apiError).Error()` (`errors.go`). It is an
  exact, case-sensitive switch from the vendor's symbolic error name to one
  of eleven sentinel errors, with a catch-all that carries the whole record.
- **The vendor timestamp codec** `FromMandrillTime` / `ToMandrillTime`
  (`mandrill.go`). These are Go's `time.Parse` and `Time.UTC().Format` with the
  layout `2006-01-02 15:04:05`. The model covers:
  - fixed-width fields, and Go's leniencies: a one-digit hour, runs of
    spaces, and a fractional second;
  - range checks, including the day against the month's length in its year;
  - conversion to UTC, with carry and borrow across day, month and year.

  The conversion to UTC is checked against an independent closed-form day
  count (`Calendar.DayNumber`, `Timestamp.Instant`).
- **The `messages/send` envelope** (`messages.go`). `Send` always sends
  `key` and `message`; it sends `async`, `ip_pool` and `send_at` only when
  they are not zero values, and renders `send_at` with the timestamp
  formatter. `SimpleSend` builds a one-recipient text message and insists on
  exactly one response.

Modules, one per concern:

- `Outcomes`: `Option` and `Result`.
- `Decimal`: Go's `appendInt` numerals.
- `Calendar`: leap years, month lengths, day stepping and day numbers.
- `Timestamp`: the parser, the formatter and UTC conversion.
- `Errors`: the classifier.
- `Executor`: `execute`.
- `Messages`: `Send` and `SimpleSend`.

`execute` decides on the status code alone (`mandrill.go:85-95`), never on
the shape of the body:

- a 200 body is returned as bytes even when it would decode as an error
  document (`Executor.StatusDecides`);
- a non-200 body is an error even when it is a valid payload.

The tests in `errors_test.go:80-108` expect errors named `Unknown_Webhook`,
`Unknown_InboundRoute`, `Unknown_Pool` and `Unknown_IP`. The classifier's
switch (`errors.go:29-56`) has no case for them, so they reach its
catch-all (`Errors.UnlistedNames`). `execute` returns the decoded
`*APIError` itself and never calls the classifier, so the classifier is
modelled on its own.

## Model

| member | source | states |
|---|---|---|
| Decimal.ValueOfPadded | mandrill.go:104-105 | a zero-padded numeral written by the formatter reads back as the number written |
| Decimal.PaddedOfValue | mandrill.go:99-105 | a digit string is exactly the zero-padded numeral of its own value at its own width, so re-rendering a parsed field restores it |
| Decimal.LengthOfPadded | mandrill.go:104-105 | a field below 10^width is rendered in exactly `width` characters |
| Decimal.ValueBound | mandrill.go:99-100 | a k-digit string denotes a number below 10^k |
| Calendar.DaysIn | mandrill.go:99-100 | a month has 28 to 31 days, and 29 exactly in February of a leap year |
| Calendar.NextDay | mandrill.go:104-105 | the following day of a valid date is a valid date |
| Calendar.PrevDay | mandrill.go:104-105 | the preceding day of a valid date is a valid date |
| Calendar.YearLength | mandrill.go:99-105 | the closed-form count of days before a year grows by exactly the length of that year under the 4/100/400 rule |
| Calendar.NextDayNumber | mandrill.go:104-105 | stepping forward one day, with carry into month and year, moves the day count by exactly one |
| Calendar.PrevDayNumber | mandrill.go:104-105 | stepping back one day, with borrow from month and year, moves the day count back by exactly one |
| Calendar.AddDaysNumber | mandrill.go:104-105 | moving a date by k days moves its day count by exactly k, in either direction |
| Calendar.DayNumberInjective | mandrill.go:104-105 | distinct valid dates have distinct day counts |
| Timestamp.ToUtc | mandrill.go:104-105 | the UTC conversion yields a valid time with offset 0 and the same fraction of a second |
| Timestamp.ToUtcKeepsInstant | mandrill.go:104-105 | converting to UTC never changes the instant a time denotes |
| Timestamp.ToUtcOfUtc | mandrill.go:104-105 | a time already in UTC is left unchanged |
| Timestamp.SameInstantSameUtc | mandrill.go:104-105 | two times have the same UTC form exactly when they denote the same instant with the same fraction |
| Timestamp.Format | mandrill.go:104-105 | the formatted text is never shorter than the 19-character layout; for a UTC year in 0..9999 it has the layout's shape and spells the UTC fields truncated to whole seconds |
| Timestamp.GetNum | mandrill.go:99-100 | a field read by the parser is one or two digits, so it lies in 0..99 |
| Timestamp.SecondsField | mandrill.go:99-100 | the seconds lie in 0..59 and an accepted fraction stays below one second |
| Timestamp.ParseDate | mandrill.go:99-100 | the date half yields a four-digit year, a month in 1..12 and a two-digit day |
| Timestamp.ParseClock | mandrill.go:99-100 | the clock half yields hour, minute, second and fraction within their ranges |
| Timestamp.Parse | mandrill.go:99-100 | an accepted text yields a valid time in UTC |
| Timestamp.ParseCanonical | mandrill.go:99-100 | a text of the exact layout shape is accepted exactly when the fields it spells form a valid date and time, and then yields those fields |
| Timestamp.FormatParseRoundTrip | mandrill.go:98-106 | formatting a parsed layout-shaped text gives the text back |
| Timestamp.FormatCanonical | mandrill.go:104-105 | a UTC time with a four-digit year formats to a layout-shaped text that spells its fields, fraction dropped |
| Timestamp.ParseFormatRoundTrip | mandrill.go:98-106 | the formatted text parses exactly when the UTC year has four digits, and then yields the time in UTC truncated to whole seconds |
| Timestamp.Fraction | mandrill.go:99-100 | a fraction after the seconds keeps the seconds, gives nanoseconds below one second, and consumes text without growing it |
| Timestamp.Nanos | mandrill.go:99-100 | up to nine fraction digits stand for fewer than 10^9 nanoseconds |
| Timestamp.NanosTrailingZero | mandrill.go:99-100 | a trailing zero in the fraction does not change the nanoseconds |
| Timestamp.AfterHour | mandrill.go:99-100 | once an hour is read, the minute, second and fraction that follow are within their ranges and the hour is kept |
| Timestamp.ClockFields | mandrill.go:99-100 | the clock fields after the space are within their ranges |
| Timestamp.Assemble | mandrill.go:99-100 | after all elements are read, the time is built exactly when no text is left and the day fits its month in that year, and then holds the fields read |
| Timestamp.DateHalf | mandrill.go:99-100 | on `YYYY-MM-DD` the date half reads the three numbers off the front and rejects only a month outside 1..12 |
| Timestamp.ClockHalf | mandrill.go:99-100 | on `HH:MM:SS` the clock half rejects an hour above 23 and otherwise goes on after the hour's two digits |
| Timestamp.MinuteSecond | mandrill.go:99-100 | after the hour, a minute above 59 is reported before a second above 59, and otherwise the fraction decides the rest |
| Timestamp.SkipSpaces | mandrill.go:99-100 | the layout's space matches any positive run of spaces |
| Timestamp.RangeErrorExactlyInvalid | mandrill.go:99-100 | the reference order of range errors finds none exactly for a valid time |
| Timestamp.CanonicalErrors | mandrill.go:99-100 | a text of the layout shape yields its fields, or else the first out-of-range field in the order month, hour, minute, second, with the day checked last |
| Timestamp.LenientSpaces | mandrill.go:99-100 | replacing the space between date and clock by any positive run of spaces never changes the result |
| Timestamp.LenientFraction | mandrill.go:99-100 | appending '.' and one to nine digits changes only the nanoseconds, which become the fraction's value, and never turns an error into success |
| Timestamp.TrailingText | mandrill.go:99-100 | text after an accepted time that does not start a fraction is rejected as extra text, carrying that text |
| Timestamp.LenientHour | mandrill.go:99-100 | dropping the leading zero of the hour never changes the result |
| Timestamp.OneDigitHourReformatted | mandrill.go:98-106 | a time read with a one-digit hour formats back with the zero restored, so not every accepted text round-trips |
| Timestamp.LeapDay | mandrill.go:99-100 | 29 February with an in-range clock parses exactly when its year is a leap year |
| Timestamp.YearNotFourDigits | mandrill.go:99-100 | a text not starting with four digits is rejected at the year element |
| Timestamp.YearDashMissing | mandrill.go:99-100 | four digits followed by anything but '-', including a fifth digit, are rejected at the dash |
| Timestamp.SpaceMissing | mandrill.go:99-100 | a date half with an in-range month followed by anything but a space is rejected at the space |
| Timestamp.NegativeYear | mandrill.go:98-106 | a formatted negative year does not parse back |
| Timestamp.WideYear | mandrill.go:98-106 | a formatted year above 9999 does not parse back |
| Timestamp.ParseExample | mandrill_test.go:52-59 | "2015-12-04 12:15:30" parses to 12:15:30 on 4 December 2015, UTC |
| Timestamp.FormatExample | mandrill_test.go:61-71 | 12:15:30 on 4 December 2015, five hours west of UTC, formats as "2015-12-04 17:15:30" |
| Timestamp.ToUtcCarriesIntoNextYear | mandrill.go:104-105 | 22:00 on 31 December at UTC-5 is 03:00 on 1 January of the next year in UTC |
| Errors.Classify | errors.go:29-56 | the result is a sentinel exactly when the name is one of the eleven case labels, that sentinel answers to the name, and otherwise the catch-all carries the whole record |
| Errors.ClassifyKnownName | errors.go:30-52 | each of the eleven names maps to its own sentinel, whatever the status, code and message |
| Errors.NamesDistinct | errors.go:30-52 | distinct sentinels answer to distinct names, so the mapping on known names is injective |
| Errors.KnownDependsOnlyOnName | errors.go:30 | for a known name only the name matters, never status, code or message |
| Errors.ClassifyUnknownName | errors.go:53-54 | any name outside the eleven yields the catch-all error carrying the record |
| Errors.CatchAllTextDiffers | errors.go:16-54 | the catch-all's text, whatever the record, never equals the text of any of the eleven sentinels |
| Errors.TextRevealsRecognition | errors.go:29-56 | two errors with the same text were either both recognised or both unrecognised |
| Errors.SentinelTextOpen | errors.go:16-26 | no sentinel text ends with a closing brace |
| Errors.RecordTextCloses | errors.go:54 | the `%+v` rendering of a record ends with its closing brace |
| Errors.UnlistedNames | errors.go:29-56 | Unknown_Webhook, Unknown_InboundRoute, Unknown_Pool, Unknown_IP and the wrongly-cased invalid_key reach the catch-all |
| Executor.Url | mandrill.go:45 | the URL is the base followed by the path, neither changed |
| Executor.DoubledSlash | mandrill.go:45 | a path that starts with a slash leaves a doubled slash after the base |
| Executor.BuildRequest | mandrill.go:32-54 | a nil payload fails with "empty request" and a marshal failure is returned unchanged, both before any request; a URL that `http.NewRequest` rejects gives its error unchanged; otherwise a POST to the joined URL with the four headers and the marshalled body |
| Executor.ReadBody | mandrill.go:67-83 | the body is decompressed exactly when the encoding is "gzip" and used raw otherwise; a read or decompression failure is returned unchanged |
| Executor.Dispatch | mandrill.go:85-95 | exactly one of bytes and error; bytes exactly when the status is 200, and then the body unchanged; otherwise the decoded error, or the "failed to interpret" error with the decoder's cause |
| Executor.Respond | mandrill.go:67-95 | after the response arrives, a body that cannot be read (bad gzip stream, read error) is that error; a readable body is handed to the status dispatch; bytes are returned exactly when the status is 200 and the body could be read, and they are the read body |
| Executor.Execute | mandrill.go:31-96 | exactly one of bytes and error on every path; a nil payload and a marshal failure send nothing; when nothing is sent the reply is the pre-flight error exactly; a request is sent exactly when one could be built, and it is that request: a POST to the joined URL with the four headers and the marshalled body; a transport error is returned unchanged; the reply is `b` exactly when the client answered 200 and the body read as `b`; any answer is then handled as `Respond` handles it |
| Executor.GzipTransparent | mandrill.go:68-83 | a gzip-encoded response answers exactly as the unencoded response with the decompressed content |
| Executor.GzipFailure | mandrill.go:69-77 | a failed decompression is an error with no bytes, whatever the status |
| Executor.EncodingMatchIsExact | mandrill.go:68-69 | "GZIP" and "x-gzip" are read raw |
| Executor.StatusDecides | mandrill.go:85-95 | the status alone decides success: a 200 body that decodes as an error is still returned as bytes |
| Executor.SuccessIgnoresErrorDecoder | mandrill.go:86-95 | a successful call does not depend on how error bodies are decoded |
| Executor.NullErrorBody | mandrill.go:87-91 | a non-200 body of JSON null still yields an error: the typed nil `*APIError` |
| Executor.ClientChoice | mandrill.go:56-61 | a handle without an HTTP client behaves as one holding the default client, and the API key plays no part in `execute` |
| Messages.JsonNamesDistinct | messages.go:19-33 | the envelope fields are serialised under distinct JSON names |
| Messages.SendEnvelope | messages.go:14-34 | `key` and `message` are always present; `async` exactly when true, `ip_pool` exactly when non-empty, `send_at` exactly when a time is given, and then it holds the formatted time |
| Messages.LookupFields | messages.go:18-34 | each field of the envelope holds its argument, and each `omitempty` field is absent exactly at its zero value |
| Messages.EnvelopeRoundTrip | messages.go:18-34 | reading the envelope back with zero-value defaults gives every argument, the time as its formatted text |
| Messages.EnvelopeNamesUnique | messages.go:18-34 | no JSON name occurs twice in the serialised envelope |
| Messages.SendAtPresentIffGiven | messages.go:14-17 | the rendered send time is non-empty exactly when a time is given, so `omitempty` never drops a given time |
| Messages.SimpleMessage | messages.go:50-55 | the built message has the given sender, subject and text, and exactly one recipient, whose address is `to` |
| Messages.Send | messages.go:13-47 | sends the envelope to the send endpoint; succeeds exactly when `execute` returns bytes that decode, and then returns the decoded responses; an `execute` error and a decode error are each returned unchanged, with no responses |
| Messages.SimpleSend | messages.go:49-74 | the request sent is the one `execute` sent; succeeds exactly when `execute` returns bytes that decode to exactly one response, and then returns it; an `execute` error and a decode error are returned unchanged; any other count of responses is the count error carrying those responses; on any error, the zero response |
| Messages.SendNeverEmptyRequest | messages.go:34-35 | `Send` always hands `execute` a payload, so it never reports an empty request |
| Messages.SendForwardsErrors | messages.go:35-38 | an error from `execute` reaches the caller of `Send` unchanged, with no responses |
| Messages.SimpleSendForwardsErrors | messages.go:60-63 | an error from `execute` reaches the caller of `SimpleSend` unchanged, with the zero response |
| Messages.SimpleSendIsSend | messages.go:49-74 | `SimpleSend` sends what `Send` would for its message with no options, and succeeds exactly when that `Send` succeeds with one response, which it returns |
| Messages.NoResponseIsAnError | messages.go:69-70 | an empty response list is an error too, despite the "more than one" wording |
| Messages.SendUrl | messages.go:35 | `Send` posts to the base URL followed by "/messages/send.json", with a doubled slash where they meet |

## Left out

- HTTP transport. `http.NewRequest`, `Do`, header transmission and connection
  handling are I/O. The client is a function from request to response, and
  only the URL check of `http.NewRequest` is kept, as a possible failure.
- The gzip algorithm and the JSON encoder and decoders. They are library
  code and are opaque, possibly failing functions in `Executor.Env`. The
  envelope is modelled as the list of fields it holds, not as JSON text.
- Executor.ReadBody: `gzip.NewReader` and the `ReadAll` that follows it are
  one collaborator. Both return their error unchanged, so which of the two
  failed is not distinguished.
- The `buf.Write` error branch (`mandrill.go:39-43`) is left out. Writing to
  a `bytes.Buffer` cannot fail.
- Closing the response body (`defer resp.Body.Close()`), which has no
  effect on the result.
- The `APIError` type that `execute` returns is not part of this model. Its
  content is represented by the four-field record of `errors.go`. The text
  of the typed error, and of errors from library code, is not modelled
  beyond the cause's text.
- Messages.SimpleSend: the text of the "received more than one response"
  error is not rendered. The error carries the responses that were received
  (stated in its contract).
- Messages.Send: a JSON `null` reply decodes to a nil slice in Go. The model
  treats it as an empty list.
- `Message` keeps only the fields the client fills in itself: html, text,
  subject, sender address, sender name and recipients. The other fields are
  passed through opaquely by `Send` and have no logic of their own.
- The other resource wrappers (users, tags, rejects, senders, URLs,
  templates, webhooks, subaccounts, inbound, exports, IPs, metadata). Each is
  the same marshal, execute and unmarshal glue with no logic of its own.
- The malformed struct tag in `rejects.go` is not modelled.
- The source's tests, which need a live API key. Only the two timestamp
  tests appear, as worked examples.
- Timestamp: the model follows current Go `time.Parse`:
  - a one-digit hour for `15`;
  - a run of spaces for one layout space;
  - an optional fraction after the seconds.

  Zone information is an offset in seconds, not a location database. For
  example, the America/Toronto test is the fixed offset UTC-5.
- Timestamp.Format: years outside 0..9999 are rendered as Go does, with a
  sign and more digits. They are not proved to round-trip, because Go's
  parser accepts only four-digit years.
- Errors: the sentinels' distinctness is their distinctness as values. The
  texts of the eleven sentinels are recorded, but their pairwise
  distinctness as strings is not proved.
- Concurrency and cancellation, which the executor leaves to the transport.

=== FILE: calendar.dfy ===
/** The proleptic Gregorian calendar as Go's `time` package uses it: leap
    years, month lengths, and stepping a date forward or back by whole days
    with carry and borrow across month and year boundaries. `DayNumber` is an
    independent closed-form count of days that the stepping functions are
    proved to agree with. */
module Calendar {

  /** Go's `isLeap`. Go's `%` truncates toward zero and Dafny's is
      Euclidean, but a remainder is zero under one exactly when it is zero
      under the other, so negative years are classified the same way. */
  predicate IsLeap(year: int) {
    year % 4 == 0 && (year % 100 != 0 || year % 400 == 0)
  }

  /** Go's `daysIn`: February has 29 days in a leap year. */
  function DaysIn(month: int, year: int): (n: int)
    requires 1 <= month <= 12
    ensures 28 <= n <= 31
    ensures n == 29 <==> month == 2 && IsLeap(year)
  {
    if month == 2 then (if IsLeap(year) then 29 else 28)
    else if month == 4 || month == 6 || month == 9 || month == 11 then 30
    else 31
  }

  datatype Date = Date(year: int, month: int, day: int)

  predicate ValidDate(d: Date) {
    1 <= d.month <= 12 && 1 <= d.day <= DaysIn(d.month, d.year)
  }

  /** The following day: the day of the month carries into the month, and
      the month into the year. */
  function NextDay(d: Date): (r: Date)
    requires ValidDate(d)
    ensures ValidDate(r)
  {
    if d.day < DaysIn(d.month, d.year) then Date(d.year, d.month, d.day + 1)
    else if d.month < 12 then Date(d.year, d.month + 1, 1)
    else Date(d.year + 1, 1, 1)
  }

  /** The preceding day: a first of the month borrows from the month, and
      a first of January from the year. */
  function PrevDay(d: Date): (r: Date)
    requires ValidDate(d)
    ensures ValidDate(r)
  {
    if d.day > 1 then Date(d.year, d.month, d.day - 1)
    else if d.month > 1 then Date(d.year, d.month - 1, DaysIn(d.month - 1, d.year))
    else Date(d.year - 1, 12, 31)
  }

  /** `d` moved by `k` days, forward when `k` is positive and back when negative. */
  function AddDays(d: Date, k: int): (r: Date)
    requires ValidDate(d)
    ensures ValidDate(r)
    decreases if k < 0 then -k else k
  {
    if k == 0 then d
    else if k > 0 then AddDays(NextDay(d), k - 1)
    else AddDays(PrevDay(d), k + 1)
  }

  /** Days in the years before `year`, counted from the start of year 0:
      365 per year plus one per leap year, by the 4/100/400 rule. Division
      is floored, so the count is right for negative years as well. */
  function DaysBeforeYear(year: int): int {
    365 * year + (year - 1) / 4 - (year - 1) / 100 + (year - 1) / 400 + 1
  }

  /** Days in the months of `year` before `month`; Go's `daysBefore` table
      with the leap day added after February. */
  function DaysBeforeMonth(month: int, year: int): int
    requires 1 <= month <= 13
  {
    var table := [0, 31, 59, 90, 120, 151, 181, 212, 243, 273, 304, 334, 365];
    table[month - 1] + (if IsLeap(year) && month > 2 then 1 else 0)
  }

  /** Days elapsed from 0000-01-01 to `d`. */
  function DayNumber(d: Date): int
    requires ValidDate(d)
  {
    DaysBeforeYear(d.year) + DaysBeforeMonth(d.month, d.year) + d.day - 1
  }

  lemma EuclidUnique(y: int, k: int, q: int, r: int)
    requires k > 0 && 0 <= r < k && y == k * q + r
    ensures y / k == q && y % k == r
  {
    var q', r' := y / k, y % k;
    assert k * (q - q') == r' - r;
    if q - q' >= 1 {
      MulAtLeast(k, q - q');
    } else if q' - q >= 1 {
      MulAtLeast(k, q' - q);
    }
  }

  lemma MulAtLeast(k: int, a: int)
    requires k > 0 && a >= 1
    ensures k * a >= k
  {
  }

  /** Stepping a year adds one multiple of `k` exactly when the year is divisible by `k`. */
  lemma FloorStep(y: int, k: int)
    requires k > 0
    ensures y / k - (y - 1) / k == (if y % k == 0 then 1 else 0)
  {
    var q, r := (y - 1) / k, (y - 1) % k;
    if r == k - 1 {
      EuclidUnique(y, k, q + 1, 0);
    } else {
      EuclidUnique(y, k, q, r + 1);
    }
  }

  lemma {:induction false} YearLength(year: int)
    ensures DaysBeforeYear(year + 1) - DaysBeforeYear(year) == DaysBeforeMonth(13, year)
  {
    FloorStep(year, 4);
    FloorStep(year, 100);
    FloorStep(year, 400);
    if year % 400 == 0 {
      EuclidUnique(year, 100, 4 * (year / 400), 0);
      EuclidUnique(year, 4, 100 * (year / 400), 0);
    } else if year % 100 == 0 {
      EuclidUnique(year, 4, 25 * (year / 100), 0);
    }
  }

  lemma MonthLength(month: int, year: int)
    requires 1 <= month <= 12
    ensures DaysBeforeMonth(month + 1, year) - DaysBeforeMonth(month, year) == DaysIn(month, year)
  {
  }

  /** The stepping function and the closed-form count agree on one day. */
  lemma {:induction false} NextDayNumber(d: Date)
    requires ValidDate(d)
    ensures DayNumber(NextDay(d)) == DayNumber(d) + 1
  {
    MonthLength(d.month, d.year);
    if d.day == DaysIn(d.month, d.year) && d.month == 12 {
      YearLength(d.year);
    }
  }

  lemma {:induction false} PrevDayNumber(d: Date)
    requires ValidDate(d)
    ensures DayNumber(PrevDay(d)) == DayNumber(d) - 1
  {
    if d.day == 1 {
      if d.month > 1 {
        MonthLength(d.month - 1, d.year);
      } else {
        YearLength(d.year - 1);
        MonthLength(12, d.year - 1);
      }
    }
  }

  /** Moving by `k` days moves the day count by exactly `k`. */
  lemma {:induction false} AddDaysNumber(d: Date, k: int)
    requires ValidDate(d)
    ensures DayNumber(AddDays(d, k)) == DayNumber(d) + k
    decreases if k < 0 then -k else k
  {
    if k > 0 {
      assert AddDays(d, k) == AddDays(NextDay(d), k - 1);
      NextDayNumber(d);
      AddDaysNumber(NextDay(d), k - 1);
    } else if k < 0 {
      assert AddDays(d, k) == AddDays(PrevDay(d), k + 1);
      PrevDayNumber(d);
      AddDaysNumber(PrevDay(d), k + 1);
    }
  }

  lemma {:induction false} DaysBeforeYearMonotone(a: int, b: int)
    requires a <= b
    ensures DaysBeforeYear(a) <= DaysBeforeYear(b)
    decreases b - a
  {
    if a < b {
      YearLength(a);
      DaysBeforeYearMonotone(a + 1, b);
    }
  }

  lemma DaysBeforeMonthMonotone(m1: int, m2: int, year: int)
    requires 1 <= m1 <= m2 <= 13
    ensures DaysBeforeMonth(m1, year) <= DaysBeforeMonth(m2, year)
  {
  }

  /** A date's day count lies within the span of its own year. */
  lemma WithinYear(d: Date)
    requires ValidDate(d)
    ensures DaysBeforeYear(d.year) <= DayNumber(d) < DaysBeforeYear(d.year + 1)
  {
    MonthLength(d.month, d.year);
    DaysBeforeMonthMonotone(d.month + 1, 13, d.year);
    YearLength(d.year);
  }

  /** Distinct valid dates have distinct day counts, so the closed form
      pins down the date that `AddDays` reaches. */
  lemma DayNumberInjective(a: Date, b: Date)
    requires ValidDate(a) && ValidDate(b)
    requires DayNumber(a) == DayNumber(b)
    ensures a == b
  {
    if a.year != b.year {
      YearsApart(a, b);
    } else if a.month != b.month {
      MonthsApart(a, b);
    }
  }

  /** Dates in different years have different day counts. */
  lemma YearsApart(a: Date, b: Date)
    requires ValidDate(a) && ValidDate(b) && a.year != b.year
    ensures DayNumber(a) != DayNumber(b)
  {
    WithinYear(a);
    WithinYear(b);
    if a.year < b.year {
      DaysBeforeYearMonotone(a.year + 1, b.year);
    } else {
      DaysBeforeYearMonotone(b.year + 1, a.year);
    }
  }

  /** Dates in different months of one year have different day counts. */
  lemma MonthsApart(a: Date, b: Date)
    requires ValidDate(a) && ValidDate(b) && a.year == b.year && a.month != b.month
    ensures DayNumber(a) != DayNumber(b)
  {
    if a.month < b.month {
      MonthLength(a.month, a.year);
      DaysBeforeMonthMonotone(a.month + 1, b.month, a.year);
    } else {
      MonthLength(b.month, b.year);
      DaysBeforeMonthMonotone(b.month + 1, a.month, b.year);
    }
  }

}

=== FILE: decimal.dfy ===
/** Decimal digit strings: the fixed-width numerals of the vendor timestamp
    and the `%d`/`%v` rendering of integers inside error texts. Go writes a
    number with `appendInt(b, x, width)`: a '-' for negatives, then the
    magnitude in decimal, left-padded with '0' up to `width` characters. */
module Decimal {

  predicate IsDigit(c: char) {
    '0' <= c <= '9'
  }

  predicate AllDigits(s: string) {
    forall i :: 0 <= i < |s| ==> IsDigit(s[i])
  }

  function DigitValue(c: char): nat
    requires IsDigit(c)
  {
    c as int - '0' as int
  }

  function DigitChar(n: nat): (c: char)
    requires n < 10
    ensures IsDigit(c) && DigitValue(c) == n
  {
    ('0' as int + n) as char
  }

  function Pow10(k: nat): (p: nat)
    ensures p >= 1
  {
    if k == 0 then 1 else 10 * Pow10(k - 1)
  }

  /** The number a string of digits denotes, most significant digit first. */
  function Value(s: string): nat
    requires AllDigits(s)
  {
    if |s| == 0 then 0 else Value(s[..|s| - 1]) * 10 + DigitValue(s[|s| - 1])
  }

  /** `n` in decimal, left-padded with zeros to at least `width` digits.
      `Padded(0, 0)` is empty; every use in the model has `width >= 1`. */
  function Padded(n: nat, width: nat): (s: string)
    ensures AllDigits(s)
    decreases n + width
  {
    if n == 0 && width == 0 then ""
    else Padded(n / 10, if width > 0 then width - 1 else 0) + [DigitChar(n % 10)]
  }

  /** Go's `appendInt(nil, x, width)`. */
  function AppendInt(x: int, width: nat): string {
    if x < 0 then "-" + Padded(-x, width) else Padded(x, width)
  }

  /** Go's `%d` / `%v` rendering of an `int`. */
  function Itoa(x: int): string {
    AppendInt(x, 1)
  }

  lemma {:induction false} ValueOfPadded(n: nat, width: nat)
    ensures Value(Padded(n, width)) == n
    decreases n + width
  {
    if n == 0 && width == 0 {
    } else {
      var w := if width > 0 then width - 1 else 0;
      var p := Padded(n / 10, w);
      ValueOfPadded(n / 10, w);
      var s := p + [DigitChar(n % 10)];
      assert s[..|s| - 1] == p;
    }
  }

  lemma {:induction false} LengthOfPadded(n: nat, width: nat)
    requires n < Pow10(width)
    ensures |Padded(n, width)| == width
    decreases width
  {
    if width > 0 {
      LengthOfPadded(n / 10, width - 1);
    }
  }

  /** A digit string is recovered from its value when padded to its own length. */
  lemma {:induction false} PaddedOfValue(d: string)
    requires AllDigits(d)
    ensures Padded(Value(d), |d|) == d
    decreases |d|
  {
    if |d| > 0 {
      var init, last := d[..|d| - 1], d[|d| - 1];
      PaddedOfValue(init);
      var v := Value(d);
      SplitLastDigit(Value(init), DigitValue(last));
      assert DigitChar(DigitValue(last)) == last;
      calc {
        Padded(v, |d|);
        Padded(v / 10, |d| - 1) + [DigitChar(v % 10)];
        Padded(Value(init), |init|) + [last];
      }
      assert d == init + [last];
    }
  }

  lemma SplitLastDigit(a: nat, b: nat)
    requires b < 10
    ensures (a * 10 + b) / 10 == a && (a * 10 + b) % 10 == b
  {
  }

  lemma {:induction false} ValueBound(d: string)
    requires AllDigits(d)
    ensures Value(d) < Pow10(|d|)
    decreases |d|
  {
    if |d| > 0 {
      ValueBound(d[..|d| - 1]);
    }
  }

  lemma ValueOfTwo(d: string)
    requires |d| == 2 && AllDigits(d)
    ensures Value(d) == DigitValue(d[0]) * 10 + DigitValue(d[1])
  {
    var first := d[..1];
    assert first[..0] == [] && first[0] == d[0];
    assert Value(first) == DigitValue(d[0]);
    assert d[..|d| - 1] == first;
  }

  lemma ValueOfFour(d: string)
    requires |d| == 4 && AllDigits(d)
    ensures Value(d) == DigitValue(d[0]) * 1000 + DigitValue(d[1]) * 100 + DigitValue(d[2]) * 10 + DigitValue(d[3])
  {
    assert d[..3][..2] == d[..2];
    ValueOfTwo(d[..2]);
  }
}

=== FILE: errors.dfy ===
/** The vendor's error taxonomy (errors.go): the `apiError` record the
    vendor sends back, eleven sentinel errors for the symbolic names the
    client knows, and the classifier `(*apiError).Error()` that maps a record
    to one of them or to a catch-all error carrying the whole record. */
module Errors {
  import opened Decimal

  /** The vendor's error document. */
  datatype ApiError = ApiError(status: string, code: int, name: string, message: string)

  /** The eleven sentinel errors, one per symbolic name the client knows. */
  datatype Sentinel =
    | InvalidKey
    | Validation
    | General
    | Payment
    | Subaccount
    | InvalidTagName
    | ServiceUnavailable
    | UnknownSender
    | UnknownUrl
    | UnknownTrackingDomain
    | UnknownTemplate

  /** What the classifier returns: a sentinel, or an error that carries the
      record it could not classify. Both are non-nil Go errors. */
  datatype Classified = Known(sentinel: Sentinel) | Unrecognised(record: ApiError)

  /** The symbolic name each sentinel stands for (the `case` labels of the switch). */
  function NameOf(k: Sentinel): string {
    match k
    case InvalidKey => "Invalid_Key"
    case Validation => "ValidationError"
    case General => "GeneralError"
    case Payment => "PaymentRequired"
    case Subaccount => "Unknown_Subaccount"
    case InvalidTagName => "Invalid_Tag_Name"
    case ServiceUnavailable => "ServiceUnavailable"
    case UnknownSender => "Unknown_Sender"
    case UnknownUrl => "Unknown_Url"
    case UnknownTrackingDomain => "Unknown_TrackingDomain"
    case UnknownTemplate => "Unknown_Template"
  }

  /** The text each sentinel was created with by `errors.New`. */
  function SentinelText(k: Sentinel): string {
    match k
    case InvalidKey => "The provided API key is not a valid Mandrill API key"
    case Validation => "The parameters passed to the API call are invalid or not provided when required"
    case General => "An unexpected error occurred processing the request. Mandrill developers will be notified."
    case Payment => "The requested feature requires payment"
    case Subaccount => "The provided subaccount id does not exist"
    case InvalidTagName => "The requested tag does not exist or contains invalid characters"
    case ServiceUnavailable => "The subsystem providing this API call is down for maintenance"
    case UnknownSender => "The requested sender does not exist"
    case UnknownUrl => "The requested URL has not been seen in a tracked link"
    case UnknownTrackingDomain => "The provided tracking domain does not exist"
    case UnknownTemplate => "The given template name already exists or contains invalid characters"
  }

  /** The names the switch recognises. */
  predicate IsKnownName(name: string) {
    exists k: Sentinel :: NameOf(k) == name
  }

  /** `(*apiError).Error()`: an exact, case-sensitive switch on `Name`; any
      other name falls to the default branch, which wraps the whole record. */
  function Classify(a: ApiError): (c: Classified)
    ensures c.Known? ==> NameOf(c.sentinel) == a.name
    ensures c.Known? <==> IsKnownName(a.name)
    ensures c.Unrecognised? ==> c.record == a
  {
    match a.name
    case "Invalid_Key" => Known(InvalidKey)
    case "ValidationError" => Known(Validation)
    case "GeneralError" => Known(General)
    case "PaymentRequired" => Known(Payment)
    case "Unknown_Subaccount" => Known(Subaccount)
    case "Invalid_Tag_Name" => Known(InvalidTagName)
    case "ServiceUnavailable" => Known(ServiceUnavailable)
    case "Unknown_Sender" => Known(UnknownSender)
    case "Unknown_Url" => Known(UnknownUrl)
    case "Unknown_TrackingDomain" => Known(UnknownTrackingDomain)
    case "Unknown_Template" => Known(UnknownTemplate)
    case _ =>
      OtherNamesUnknown(a.name);
      Unrecognised(a)
  }

  /** A name that matches none of the case labels is not a known name. */
  lemma OtherNamesUnknown(name: string)
    requires name != "Invalid_Key" && name != "ValidationError" && name != "GeneralError"
    requires name != "PaymentRequired" && name != "Unknown_Subaccount" && name != "Invalid_Tag_Name"
    requires name != "ServiceUnavailable" && name != "Unknown_Sender" && name != "Unknown_Url"
    requires name != "Unknown_TrackingDomain" && name != "Unknown_Template"
    ensures !IsKnownName(name)
  {
    forall k: Sentinel
      ensures NameOf(k) != name
    {
    }
  }

  /** Go's `%+v` rendering of an `*apiError`. */
  function RecordText(a: ApiError): string {
    "&{Status:" + a.status + " Code:" + Itoa(a.code) + " Name:" + a.name + " Message:" + a.message + "}"
  }

  /** The fixed opening of the catch-all error's text. */
  const CatchAllPrefix := "An unknown error response was received from API. "

  /** The error text of a classified error. */
  function Text(c: Classified): string {
    match c
    case Known(k) => SentinelText(k)
    case Unrecognised(a) => CatchAllPrefix + RecordText(a)
  }

  // ---------------------------------------------------------------------
  // Properties of the classifier
  // ---------------------------------------------------------------------

  /** Each known name is classified as its own sentinel, whatever the other
      three fields hold. */
  lemma ClassifyKnownName(k: Sentinel, status: string, code: int, message: string)
    ensures Classify(ApiError(status, code, NameOf(k), message)) == Known(k)
  {
    NamesDistinct(k, Classify(ApiError(status, code, NameOf(k), message)).sentinel);
  }

  /** Distinct sentinels answer to distinct names, so the classification of
      known names is injective. */
  lemma NamesDistinct(k1: Sentinel, k2: Sentinel)
    ensures NameOf(k1) == NameOf(k2) ==> k1 == k2
  {
  }

  /** For a known name only the name matters: records that share it are
      classified alike whatever their status, code or message. */
  lemma KnownDependsOnlyOnName(a1: ApiError, a2: ApiError)
    requires IsKnownName(a1.name) && a1.name == a2.name
    ensures Classify(a1) == Classify(a2)
  {
    NamesDistinct(Classify(a1).sentinel, Classify(a2).sentinel);
  }

  /** An unknown name yields the catch-all error carrying the whole record. */
  lemma ClassifyUnknownName(a: ApiError)
    requires !IsKnownName(a.name)
    ensures Classify(a) == Unrecognised(a)
  {
  }

  /** The catch-all text never coincides with the text of a recognised
      error, so a caller reading `Error()` can tell the two apart. */
  lemma CatchAllTextDiffers(a: ApiError, k: Sentinel)
    requires !IsKnownName(a.name)
    ensures Text(Classify(a)) != SentinelText(k)
  {
    // The catch-all text ends with the record's closing brace; no sentinel
    // text does.
    ClassifyUnknownName(a);
    var t := Text(Classify(a));
    assert t == CatchAllPrefix + RecordText(a);
    RecordTextCloses(a);
    assert t[|t| - 1] == '}';
    SentinelTextOpen(k);
  }

  /** The rendered record ends with its closing brace. */
  lemma RecordTextCloses(a: ApiError)
    ensures |RecordText(a)| > 0 && RecordText(a)[|RecordText(a)| - 1] == '}'
  {
  }

  /** No sentinel text ends with a closing brace. */
  lemma SentinelTextOpen(k: Sentinel)
    ensures EndsOpen(SentinelText(k))
  {
    // Split by theme to keep each proof over the literals small.
    match k
    case InvalidKey | Payment | Subaccount => AccountTextsOpen(k);
    case Validation | InvalidTagName | UnknownTemplate => RequestTextsOpen(k);
    case General | ServiceUnavailable => ServiceTextsOpen(k);
    case UnknownSender | UnknownUrl | UnknownTrackingDomain => LookupTextsOpen(k);
  }

  /** `t` is non-empty and does not end with a closing brace. */
  predicate EndsOpen(t: string) {
    |t| > 0 && t[|t| - 1] != '}'
  }

  /** The texts of the account errors end without a brace. */
  lemma AccountTextsOpen(k: Sentinel)
    requires k == InvalidKey || k == Payment || k == Subaccount
    ensures EndsOpen(SentinelText(k))
  {
  }

  /** The texts of the errors about the request's content end without a brace. */
  lemma RequestTextsOpen(k: Sentinel)
    requires k == Validation || k == InvalidTagName || k == UnknownTemplate
    ensures EndsOpen(SentinelText(k))
  {
  }

  /** The texts of the errors on the vendor's side end without a brace. */
  lemma ServiceTextsOpen(k: Sentinel)
    requires k == General || k == ServiceUnavailable
    ensures EndsOpen(SentinelText(k))
  {
  }

  /** The texts of the failed lookups end without a brace. */
  lemma LookupTextsOpen(k: Sentinel)
    requires k == UnknownSender || k == UnknownUrl || k == UnknownTrackingDomain
    ensures EndsOpen(SentinelText(k))
  {
  }

  /** Equal texts imply that both records were recognised or that neither
      was. */
  lemma TextRevealsRecognition(a: ApiError, b: ApiError)
    requires Text(Classify(a)) == Text(Classify(b))
    ensures Classify(a).Known? <==> Classify(b).Known?
  {
    if Classify(a).Known? && !Classify(b).Known? {
      CatchAllTextDiffers(b, Classify(a).sentinel);
    } else if !Classify(a).Known? && Classify(b).Known? {
      CatchAllTextDiffers(a, Classify(b).sentinel);
    }
  }

  /** Names the vendor also uses, and a wrongly-cased known name, have no
      case of their own and fall to the catch-all. */
  lemma UnlistedNames(status: string, code: int, message: string)
    ensures Classify(ApiError(status, code, "Unknown_Webhook", message)).Unrecognised?
    ensures Classify(ApiError(status, code, "Unknown_InboundRoute", message)).Unrecognised?
    ensures Classify(ApiError(status, code, "Unknown_Pool", message)).Unrecognised?
    ensures Classify(ApiError(status, code, "Unknown_IP", message)).Unrecognised?
    ensures Classify(ApiError(status, code, "invalid_key", message)).Unrecognised?
  {
  }
}

=== FILE: executor.dfy ===
/** The shared request executor (`Mandrill.execute` in mandrill.go): every
    resource method hands it an endpoint path and a payload, and gets back
    either the raw response bytes or an error, never both.

    The libraries it calls (the JSON encoder, the URL parser inside
    `http.NewRequest`, the HTTP transport, gzip and the JSON decoder) are
    collaborators passed in through `Env`; each may fail, and the model fixes
    only how the executor reacts to their results. */
module Executor {
  import opened Outcomes
  import opened Errors

  type Bytes = seq<bv8>

  /** `APIBaseURL`. It ends in a slash and is joined to the path unchanged. */
  const ApiBaseUrl: string := "https://mandrillapp.com/api/1.0/"

  /** An error raised by a library the executor calls and returned to the
      caller unchanged. Only its text is modelled. */
  datatype Cause = Cause(text: string)

  datatype Header = Header(name: string, value: string)

  /** The four headers set on every request, in the order they are set. */
  const StandardHeaders: seq<Header> := [
    Header("Content-Type", "application/json"),
    Header("Accept", "application/json"),
    Header("Accept-Encoding", "gzip"),
    Header("User-Agent", "Mandrill Go")
  ]

  datatype Request = Request(verb: string, url: string, headers: seq<Header>, body: Bytes)

  /** What the transport delivers: the status code, the `Content-Encoding`
      header (empty when absent), and the body stream, which may fail while
      it is read. */
  datatype Response = Response(status: int, contentEncoding: string, body: Result<Bytes, Cause>)

  /** An `*http.Client`'s `Do`. */
  type Client = Request -> Result<Response, Cause>

  /** The client handle: an API key and an optional HTTP client. */
  datatype Mandrill = Mandrill(apiKey: string, httpClient: Option<Client>)

  /** The library behaviour the executor relies on, for payloads of type `P`. */
  datatype Env<!P> = Env(
    /** `json.Marshal` */
    marshal: P -> Result<Bytes, Cause>,
    /** the URL check inside `http.NewRequest`: `Some` when the URL is rejected */
    rejectUrl: string -> Option<Cause>,
    /** `http.DefaultClient` */
    defaultClient: Client,
    /** `gzip.NewReader` followed by `ioutil.ReadAll` */
    gunzip: Bytes -> Result<Bytes, Cause>,
    /** `json.Unmarshal` into an `*APIError`; `Ok(None)` when the body is JSON `null` */
    decodeApiError: Bytes -> Result<Option<ApiError>, Cause>)

  /** The errors `execute` can return. */
  datatype Failure =
    | /** `errors.New("empty request")` */
      EmptyRequest
    | /** a library error returned unchanged */
      Forwarded(cause: Cause)
    | /** the decoded `*APIError`; `None` is the typed nil pointer decoded
          from a JSON `null`, which is still a non-nil `error` */
      Vendor(record: Option<ApiError>)
    | /** "failed to interpret api error. Error Response: %s" */
      Uninterpretable(cause: Cause)

  /** Go's `([]byte, error)` pair. */
  datatype Reply = Reply(bytes: Option<Bytes>, err: Option<Failure>)

  /** The reply together with the request put on the wire, if any. */
  datatype Exchange = Exchange(sent: Option<Request>, reply: Reply)

  predicate ExactlyOne(r: Reply) {
    r.bytes.Some? != r.err.Some?
  }

  function Fail(f: Failure): (r: Reply)
    ensures ExactlyOne(r) && r.err == Some(f)
  {
    Reply(None, Some(f))
  }

  /** The URL `execute` posts to: the base and the path joined as they are. */
  function Url(path: string): (url: string)
    ensures |url| == |ApiBaseUrl| + |path|
    ensures url[..|ApiBaseUrl|] == ApiBaseUrl && url[|ApiBaseUrl|..] == path
  {
    ApiBaseUrl + path
  }

  /** The pre-flight half of `execute`: the nil check, marshalling, and
      building the request. Nothing is sent yet. */
  function BuildRequest<P>(env: Env<P>, path: string, obj: Option<P>): (r: Result<Request, Failure>)
    ensures obj.None? ==> r == Err(EmptyRequest)
    ensures obj.Some? && env.marshal(obj.value).Err? ==> r == Err(Forwarded(env.marshal(obj.value).error))
    ensures r.Ok? <==> obj.Some? && env.marshal(obj.value).Ok? && env.rejectUrl(Url(path)).None?
    ensures r.Ok? ==> r.value == Request("POST", Url(path), StandardHeaders, env.marshal(obj.value).value)
    ensures obj.Some? && env.marshal(obj.value).Ok? && env.rejectUrl(Url(path)).Some? ==>
              r == Err(Forwarded(env.rejectUrl(Url(path)).value))
  {
    if obj.None? then Err(EmptyRequest)
    else
      match env.marshal(obj.value)
      case Err(c) => Err(Forwarded(c))
      case Ok(body) =>
        match env.rejectUrl(Url(path))
        case Some(c) => Err(Forwarded(c))
        case None => Ok(Request("POST", Url(path), StandardHeaders, body))
  }

  /** The client `execute` sends through: the handle's own, else the default. */
  function ClientOf<P>(env: Env<P>, m: Mandrill): Client {
    if m.httpClient.Some? then m.httpClient.value else env.defaultClient
  }

  /** Reading the body: decompressed when `Content-Encoding` is exactly
      "gzip", read as it is otherwise. Any failure is returned unchanged. */
  function ReadBody<P>(env: Env<P>, resp: Response): (r: Result<Bytes, Failure>)
    ensures resp.body.Err? ==> r == Err(Forwarded(resp.body.error))
    ensures resp.contentEncoding != "gzip" && resp.body.Ok? ==> r == Ok(resp.body.value)
    ensures resp.contentEncoding == "gzip" && resp.body.Ok? ==>
              match env.gunzip(resp.body.value)
              case Ok(plain) => r == Ok(plain)
              case Err(c) => r == Err(Forwarded(c))
  {
    match resp.body
    case Err(c) => Err(Forwarded(c))
    case Ok(raw) =>
      if resp.contentEncoding == "gzip" then
        match env.gunzip(raw)
        case Err(c) => Err(Forwarded(c))
        case Ok(plain) => Ok(plain)
      else Ok(raw)
  }

  /** The status dispatch: status 200 returns the body, any other status is
      an error, decoded from the body as an `*APIError` when it can be. */
  function Dispatch<P>(env: Env<P>, status: int, body: Bytes): (r: Reply)
    ensures ExactlyOne(r)
    ensures r.bytes.Some? <==> status == 200
    ensures r.bytes.Some? ==> r.bytes.value == body
    ensures r.err.Some? ==> (r.err.value.Vendor? <==> env.decodeApiError(body).Ok?)
    ensures r.err.Some? && r.err.value.Vendor? ==> env.decodeApiError(body) == Ok(r.err.value.record)
    ensures r.err.Some? && !r.err.value.Vendor? ==> r.err.value == Uninterpretable(env.decodeApiError(body).error)
  {
    if status != 200 then
      match env.decodeApiError(body)
      case Err(c) => Fail(Uninterpretable(c))
      case Ok(record) => Fail(Vendor(record))
    else Reply(Some(body), None)
  }

  /** Everything after the transport has answered. */
  function Respond<P>(env: Env<P>, resp: Response): (r: Reply)
    ensures ExactlyOne(r)
    ensures r.bytes.Some? <==> resp.status == 200 && ReadBody(env, resp).Ok?
    ensures r.bytes.Some? ==> r.bytes.value == ReadBody(env, resp).value
    ensures ReadBody(env, resp).Err? ==> r == Fail(ReadBody(env, resp).error)
    ensures ReadBody(env, resp).Ok? ==> r == Dispatch(env, resp.status, ReadBody(env, resp).value)
  {
    match ReadBody(env, resp)
    case Err(f) => Fail(f)
    case Ok(body) => Dispatch(env, resp.status, body)
  }

  /** `(*Mandrill).execute(path, obj)`. */
  function Execute<P>(env: Env<P>, m: Mandrill, path: string, obj: Option<P>): (x: Exchange)
    ensures ExactlyOne(x.reply)
    ensures obj.None? ==> x == Exchange(None, Fail(EmptyRequest))
    ensures obj.Some? && env.marshal(obj.value).Err? ==> x == Exchange(None, Fail(Forwarded(env.marshal(obj.value).error)))
    ensures x.sent.Some? <==> BuildRequest(env, path, obj).Ok?
    ensures x.sent.None? ==> x.reply == Fail(BuildRequest(env, path, obj).error)
    ensures x.sent.Some? ==> x.sent.value == BuildRequest(env, path, obj).value
    ensures x.sent.Some? ==> x.sent.value.url == ApiBaseUrl + path && x.sent.value.verb == "POST"
    ensures x.reply.bytes.Some? ==> x.sent.Some? && ClientOf(env, m)(x.sent.value).Ok?
                                    && ClientOf(env, m)(x.sent.value).value.status == 200
    ensures forall c :: x.sent.Some? && ClientOf(env, m)(x.sent.value) == Err(c) ==>
                          x.reply == Fail(Forwarded(c))
    ensures forall b :: x.reply.bytes == Some(b) <==>
                          (x.sent.Some? && ClientOf(env, m)(x.sent.value).Ok?
                           && ClientOf(env, m)(x.sent.value).value.status == 200
                           && ReadBody(env, ClientOf(env, m)(x.sent.value).value) == Ok(b))
    ensures x.sent.Some? && ClientOf(env, m)(x.sent.value).Ok? ==>
              x.reply == Respond(env, ClientOf(env, m)(x.sent.value).value)
  {
    match BuildRequest(env, path, obj)
    case Err(f) => Exchange(None, Fail(f))
    case Ok(req) =>
      match ClientOf(env, m)(req)
      case Err(c) => Exchange(Some(req), Fail(Forwarded(c)))
      case Ok(resp) => Exchange(Some(req), Respond(env, resp))
  }

  // ---------------------------------------------------------------------
  // Properties of the executor
  // ---------------------------------------------------------------------

  /** A gzip-encoded response answers exactly as an unencoded response with
      the decompressed content would. */
  lemma GzipTransparent<P>(env: Env<P>, status: int, compressed: Bytes, plain: Bytes, otherEncoding: string)
    requires env.gunzip(compressed) == Ok(plain)
    requires otherEncoding != "gzip"
    ensures Respond(env, Response(status, "gzip", Ok(compressed))) == Respond(env, Response(status, otherEncoding, Ok(plain)))
  {
  }

  /** A failed decompression is an error with no bytes, whatever the status. */
  lemma GzipFailure<P>(env: Env<P>, status: int, compressed: Bytes)
    requires env.gunzip(compressed).Err?
    ensures Respond(env, Response(status, "gzip", Ok(compressed))) == Fail(Forwarded(env.gunzip(compressed).error))
  {
  }

  /** The encoding must be exactly "gzip": other spellings are read raw and
      the decompressor is never consulted. */
  lemma EncodingMatchIsExact<P>(env: Env<P>, status: int, raw: Bytes)
    ensures ReadBody(env, Response(status, "GZIP", Ok(raw))) == Ok(raw)
    ensures ReadBody(env, Response(status, "x-gzip", Ok(raw))) == Ok(raw)
  {
  }

  /** The status code alone decides success: a 200 body is returned as it
      is even when it would decode as an API error, and a non-200 status is
      an error even when the body is a well-formed success payload. */
  lemma StatusDecides<P>(env: Env<P>, status: int, body: Bytes)
    ensures Dispatch(env, status, body).bytes.Some? <==> status == 200
    ensures env.decodeApiError(body).Ok? && env.decodeApiError(body).value.Some? ==>
              Dispatch(env, 200, body) == Reply(Some(body), None)
  {
  }

  /** A successful call does not depend on how error bodies are decoded. */
  lemma SuccessIgnoresErrorDecoder<P>(env: Env<P>, m: Mandrill, path: string, obj: Option<P>,
                                      decode: Bytes -> Result<Option<ApiError>, Cause>)
    requires Execute(env, m, path, obj).reply.bytes.Some?
    ensures Execute(env.(decodeApiError := decode), m, path, obj) == Execute(env, m, path, obj)
  {
  }

  /** A JSON `null` error body decodes without error into a nil `*APIError`,
      and `execute` still fails: the typed nil is a non-nil `error`. */
  lemma NullErrorBody<P>(env: Env<P>, status: int, body: Bytes)
    requires status != 200 && env.decodeApiError(body) == Ok(None)
    ensures Dispatch(env, status, body) == Fail(Vendor(None))
  {
  }

  /** `execute` never reads the API key, and a handle without an HTTP client
      behaves as one holding `http.DefaultClient`. */
  lemma ClientChoice<P>(env: Env<P>, m: Mandrill, key: string, path: string, obj: Option<P>)
    ensures Execute(env, Mandrill(key, None), path, obj) == Execute(env, Mandrill(key, Some(env.defaultClient)), path, obj)
    ensures Execute(env, m, path, obj) == Execute(env, Mandrill(key, m.httpClient), path, obj)
  {
  }

  /** Every endpoint path starts with a slash and the base ends with one, so
      the URL carries a doubled slash there. */
  lemma DoubledSlash(path: string)
    requires |path| > 0 && path[0] == '/'
    ensures Url(path)[|ApiBaseUrl| - 1] == '/' && Url(path)[|ApiBaseUrl|] == '/'
  {
  }
}

=== FILE: messages.dfy ===
/** The messages resource (messages.go): `Send` wraps a message in the
    request envelope of the `messages/send` call, and `SimpleSend` builds a
    one-recipient text message and insists on exactly one response.

    The envelope is modelled at the level of which fields it holds: a field
    tagged `omitempty` is absent when it holds its zero value. */
module Messages {
  import opened Outcomes
  import opened Executor
  import Timestamp

  /** A recipient: `Email`, and the optional `Name` and `Type`. */
  datatype Recipient = Recipient(email: string, name: string, kind: string)

  /** The fields of `Message` the client itself fills in. */
  datatype Message = Message(html: string, text: string, subject: string, fromEmail: string,
                             fromName: string, to: seq<Recipient>)

  /** One entry of the vendor's reply, one per recipient. */
  datatype SendResponse = SendResponse(email: string, status: string, rejectReason: string, id: string)

  /** Go's `SendResponse{}`. */
  const ZeroResponse := SendResponse("", "", "", "")

  const SendPath := "/messages/send.json"

  /** The JSON value of one envelope field. */
  datatype Value = Str(s: string) | Bool(b: bool) | MessageRef(message: Option<Message>)

  /** The envelope fields of the messages resource. */
  datatype Tag = KeyTag | MessageTag | AsyncTag | IpPoolTag | SendAtTag

  /** The JSON name each field is serialised under. */
  function JsonName(t: Tag): string {
    match t
    case KeyTag => "key"
    case MessageTag => "message"
    case AsyncTag => "async"
    case IpPoolTag => "ip_pool"
    case SendAtTag => "send_at"
  }

  /** Distinct fields are serialised under distinct names. */
  lemma JsonNamesDistinct(t1: Tag, t2: Tag)
    ensures JsonName(t1) == JsonName(t2) ==> t1 == t2
  {
  }

  datatype Field = Field(name: Tag, value: Value)

  /** A request envelope: its fields in declaration order. */
  type Envelope = seq<Field>

  /** The value of the field called `name`, if the envelope holds one. */
  function Lookup(e: Envelope, name: Tag): Option<Value> {
    if |e| == 0 then None
    else if e[0].name == name then Some(e[0].value)
    else Lookup(e[1..], name)
  }

  /** A string field tagged `omitempty`: absent when empty. */
  function OmitEmptyStr(name: Tag, s: string): Envelope {
    if s == "" then [] else [Field(name, Str(s))]
  }

  /** A boolean field tagged `omitempty`: absent when false. */
  function OmitEmptyBool(name: Tag, b: bool): Envelope {
    if b then [Field(name, Bool(true))] else []
  }

  /** `tsend`: the vendor timestamp of `sendAt`, or "" when there is none. */
  function SendAtText(sendAt: Option<Timestamp.DateTime>): string
    requires sendAt.Some? ==> Timestamp.Valid(sendAt.value)
  {
    if sendAt.Some? then Timestamp.Format(sendAt.value) else ""
  }

  /** The anonymous struct `Send` marshals: `key` and `message` always,
      then `async`, `ip_pool` and `send_at`, each dropped at its zero value. */
  function SendEnvelope(key: string, message: Option<Message>, async: bool, ipPool: string,
                        sendAt: Option<Timestamp.DateTime>): (e: Envelope)
    requires sendAt.Some? ==> Timestamp.Valid(sendAt.value)
    ensures Lookup(e, KeyTag) == Some(Str(key))
    ensures Lookup(e, MessageTag) == Some(MessageRef(message))
    ensures Lookup(e, AsyncTag).Some? <==> async
    ensures Lookup(e, IpPoolTag).Some? <==> ipPool != ""
    ensures Lookup(e, SendAtTag).Some? <==> sendAt.Some?
    ensures sendAt.Some? ==> Lookup(e, SendAtTag) == Some(Str(Timestamp.Format(sendAt.value)))
  {
    var e := Fields(key, message, async, ipPool, SendAtText(sendAt));
    forall t: Tag {
      LookupFields(key, message, async, ipPool, SendAtText(sendAt), t);
    }
    e
  }

  lemma {:induction false} LookupAppend(a: Envelope, b: Envelope, t: Tag)
    ensures Lookup(a + b, t) == if Lookup(a, t).Some? then Lookup(a, t) else Lookup(b, t)
    decreases |a|
  {
    if |a| > 0 {
      assert (a + b)[0] == a[0];
      assert (a + b)[1..] == a[1..] + b;
      if a[0].name != t {
        LookupAppend(a[1..], b, t);
      }
    } else {
      assert a + b == b;
    }
  }

  /** The fields `Send` marshals, with the send time already rendered. */
  function Fields(key: string, message: Option<Message>, async: bool, ipPool: string, tsend: string): Envelope {
    [Field(KeyTag, Str(key)), Field(MessageTag, MessageRef(message))]
    + OmitEmptyBool(AsyncTag, async)
    + OmitEmptyStr(IpPoolTag, ipPool)
    + OmitEmptyStr(SendAtTag, tsend)
  }

  lemma LookupOne(f: Field, t: Tag)
    ensures Lookup([f], t) == if f.name == t then Some(f.value) else None
  {
    assert [f][1..] == [];
  }

  lemma LookupOmitEmptyStr(name: Tag, s: string, t: Tag)
    ensures Lookup(OmitEmptyStr(name, s), t) == if s != "" && name == t then Some(Str(s)) else None
  {
    if s != "" {
      LookupOne(Field(name, Str(s)), t);
    }
  }

  lemma LookupOmitEmptyBool(name: Tag, b: bool, t: Tag)
    ensures Lookup(OmitEmptyBool(name, b), t) == if b && name == t then Some(Bool(true)) else None
  {
    if b {
      LookupOne(Field(name, Bool(true)), t);
    }
  }

  lemma LookupFields(key: string, message: Option<Message>, async: bool, ipPool: string, tsend: string, t: Tag)
    ensures Lookup(Fields(key, message, async, ipPool, tsend), t) ==
              match t
              case KeyTag => Some(Str(key))
              case MessageTag => Some(MessageRef(message))
              case AsyncTag => if async then Some(Bool(true)) else None
              case IpPoolTag => if ipPool == "" then None else Some(Str(ipPool))
              case SendAtTag => if tsend == "" then None else Some(Str(tsend))
  {
    var kf, mf := Field(KeyTag, Str(key)), Field(MessageTag, MessageRef(message));
    var a, p, st := OmitEmptyBool(AsyncTag, async), OmitEmptyStr(IpPoolTag, ipPool), OmitEmptyStr(SendAtTag, tsend);
    assert Fields(key, message, async, ipPool, tsend) == [kf] + ([mf] + (a + (p + st)));
    LookupOne(kf, t);
    LookupOne(mf, t);
    LookupOmitEmptyBool(AsyncTag, async, t);
    LookupOmitEmptyStr(IpPoolTag, ipPool, t);
    LookupOmitEmptyStr(SendAtTag, tsend, t);
    LookupAppend([kf], [mf] + (a + (p + st)), t);
    LookupAppend([mf], a + (p + st), t);
    LookupAppend(a, p + st, t);
    LookupAppend(p, st, t);
  }

  /** What a decoder with Go's zero-value defaults reads back from a `Send`
      envelope: the key, the message, async, the pool and the send time text. */
  datatype SendArgs = SendArgs(key: string, message: Option<Message>, async: bool, ipPool: string, sendAt: string)

  function ReadSendEnvelope(e: Envelope): SendArgs {
    SendArgs(
      match Lookup(e, KeyTag) case Some(Str(s)) => s case _ => "",
      match Lookup(e, MessageTag) case Some(MessageRef(m)) => m case _ => None,
      match Lookup(e, AsyncTag) case Some(Bool(b)) => b case _ => false,
      match Lookup(e, IpPoolTag) case Some(Str(s)) => s case _ => "",
      match Lookup(e, SendAtTag) case Some(Str(s)) => s case _ => "")
  }

  /** Dropping zero-valued fields loses nothing: decoding the envelope with
      zero-value defaults gives back every argument, the time as its text. */
  lemma EnvelopeRoundTrip(key: string, message: Option<Message>, async: bool, ipPool: string,
                          sendAt: Option<Timestamp.DateTime>)
    requires sendAt.Some? ==> Timestamp.Valid(sendAt.value)
    ensures ReadSendEnvelope(SendEnvelope(key, message, async, ipPool, sendAt))
            == SendArgs(key, message, async, ipPool, SendAtText(sendAt))
  {
    forall t: Tag {
      LookupFields(key, message, async, ipPool, SendAtText(sendAt), t);
    }
  }

  /** No JSON name occurs twice in an envelope `Send` builds. */
  lemma EnvelopeNamesUnique(key: string, message: Option<Message>, async: bool, ipPool: string,
                            sendAt: Option<Timestamp.DateTime>)
    requires sendAt.Some? ==> Timestamp.Valid(sendAt.value)
    ensures var e := SendEnvelope(key, message, async, ipPool, sendAt);
            forall i, j :: 0 <= i < j < |e| ==> JsonName(e[i].name) != JsonName(e[j].name)
  {
    EnvelopeAscending(key, message, async, ipPool, SendAtText(sendAt));
    EnvelopeIsFields(key, message, async, ipPool, sendAt);
    var e := SendEnvelope(key, message, async, ipPool, sendAt);
    forall i, j | 0 <= i < j < |e|
      ensures JsonName(e[i].name) != JsonName(e[j].name)
    {
      JsonNamesDistinct(e[i].name, e[j].name);
    }
  }

  /** The fields appear in the order the struct declares them. */
  lemma EnvelopeAscending(key: string, message: Option<Message>, async: bool, ipPool: string, tsend: string)
    ensures Ascending(Fields(key, message, async, ipPool, tsend))
  {
    var head := [Field(KeyTag, Str(key)), Field(MessageTag, MessageRef(message))];
    var withAsync := head + OmitEmptyBool(AsyncTag, async);
    var withPool := withAsync + OmitEmptyStr(IpPoolTag, ipPool);
    assert Ascending(head) && Below(head, Rank(AsyncTag));
    AppendRanked(head, OmitEmptyBool(AsyncTag, async), AsyncTag);
    AppendRanked(withAsync, OmitEmptyStr(IpPoolTag, ipPool), IpPoolTag);
    AppendRanked(withPool, OmitEmptyStr(SendAtTag, tsend), SendAtTag);
  }

  lemma EnvelopeIsFields(key: string, message: Option<Message>, async: bool, ipPool: string,
                         sendAt: Option<Timestamp.DateTime>)
    requires sendAt.Some? ==> Timestamp.Valid(sendAt.value)
    ensures SendEnvelope(key, message, async, ipPool, sendAt) == Fields(key, message, async, ipPool, SendAtText(sendAt))
  {
  }

  /** Field names in strictly increasing declaration order. */
  predicate Ascending(e: Envelope) {
    forall i, j :: 0 <= i < j < |e| ==> Rank(e[i].name) < Rank(e[j].name)
  }

  predicate Below(e: Envelope, r: nat) {
    forall i :: 0 <= i < |e| ==> Rank(e[i].name) < r
  }

  /** Appending at most one field named later than everything so far keeps
      the names ascending. */
  lemma AppendRanked(a: Envelope, piece: Envelope, t: Tag)
    requires Ascending(a) && Below(a, Rank(t))
    requires |piece| <= 1 && forall j :: 0 <= j < |piece| ==> piece[j].name == t
    ensures Ascending(a + piece) && Below(a + piece, Rank(t) + 1)
  {
  }

  /** The position of each field in the struct declaration. */
  function Rank(t: Tag): nat {
    match t
    case KeyTag => 0
    case MessageTag => 1
    case AsyncTag => 2
    case IpPoolTag => 3
    case SendAtTag => 4
  }

  /** The message `SimpleSend` builds. */
  function SimpleMessage(from: string, to: string, subject: string, body: string): (msg: Message)
    ensures msg.fromEmail == from && msg.subject == subject && msg.text == body
    ensures |msg.to| == 1 && msg.to[0].email == to
    ensures msg.to[0].name == "" && msg.to[0].kind == "" && msg.html == "" && msg.fromName == ""
  {
    Message("", body, subject, from, "", [Recipient(to, "", "")])
  }

  /** The anonymous struct `SimpleSend` marshals: just `key` and `message`. */
  function SimpleEnvelope(key: string, msg: Message): Envelope {
    [Field(KeyTag, Str(key)), Field(MessageTag, MessageRef(Some(msg)))]
  }

  /** The errors of the messages resource. */
  datatype SendError =
    | /** an error from `execute`, returned unchanged */
      Execution(failure: Failure)
    | /** `json.Unmarshal` of the reply failed */
      Decoding(cause: Cause)
    | /** "received more than one response: %+v", carrying the responses */
      ResponseCount(responses: seq<SendResponse>)

  /** `Send`'s `([]SendResponse, error)`, with the request that went out. */
  datatype SendResult = SendResult(sent: Option<Request>, responses: seq<SendResponse>, err: Option<SendError>)

  /** `SimpleSend`'s `(SendResponse, error)`, with the request that went out. */
  datatype SimpleResult = SimpleResult(sent: Option<Request>, response: SendResponse, err: Option<SendError>)

  /** `json.Unmarshal` into `[]SendResponse`; a JSON `null` reads as an empty list. */
  type ResponseDecoder = Bytes -> Result<seq<SendResponse>, Cause>

  /** `(*Messages).Send`. */
  function Send(env: Env<Envelope>, m: Mandrill, message: Option<Message>, async: bool, ipPool: string,
                sendAt: Option<Timestamp.DateTime>, decode: ResponseDecoder): (r: SendResult)
    requires sendAt.Some? ==> Timestamp.Valid(sendAt.value)
    ensures r.sent == Execute(env, m, SendPath, Some(SendEnvelope(m.apiKey, message, async, ipPool, sendAt))).sent
    ensures r.err.Some? ==> r.responses == []
    ensures r.err.None? <==> Execute(env, m, SendPath, Some(SendEnvelope(m.apiKey, message, async, ipPool, sendAt))).reply.bytes.Some?
                             && decode(Execute(env, m, SendPath, Some(SendEnvelope(m.apiKey, message, async, ipPool, sendAt))).reply.bytes.value).Ok?
    ensures r.err.None? ==> r.responses == decode(Execute(env, m, SendPath, Some(SendEnvelope(m.apiKey, message, async, ipPool, sendAt))).reply.bytes.value).value
    ensures r.err.Some? ==> !r.err.value.ResponseCount?
    ensures var x := Execute(env, m, SendPath, Some(SendEnvelope(m.apiKey, message, async, ipPool, sendAt)));
            x.reply.err.Some? ==> r.err == Some(Execution(x.reply.err.value))
    ensures var x := Execute(env, m, SendPath, Some(SendEnvelope(m.apiKey, message, async, ipPool, sendAt)));
            x.reply.bytes.Some? && decode(x.reply.bytes.value).Err? ==>
              r.err == Some(Decoding(decode(x.reply.bytes.value).error))
  {
    var x := Execute(env, m, SendPath, Some(SendEnvelope(m.apiKey, message, async, ipPool, sendAt)));
    if x.reply.err.Some? then SendResult(x.sent, [], Some(Execution(x.reply.err.value)))
    else
      match decode(x.reply.bytes.value)
      case Err(c) => SendResult(x.sent, [], Some(Decoding(c)))
      case Ok(ret) => SendResult(x.sent, ret, None)
  }

  /** `(*Mandrill).SimpleSend`. */
  function SimpleSend(env: Env<Envelope>, m: Mandrill, from: string, to: string, subject: string, body: string,
                      decode: ResponseDecoder): (r: SimpleResult)
    ensures r.err.Some? ==> r.response == ZeroResponse
    ensures r.err.None? <==>
              var x := Execute(env, m, SendPath, Some(SimpleEnvelope(m.apiKey, SimpleMessage(from, to, subject, body))));
              x.reply.bytes.Some? && decode(x.reply.bytes.value).Ok? && |decode(x.reply.bytes.value).value| == 1
    ensures r.err.None? ==>
              var x := Execute(env, m, SendPath, Some(SimpleEnvelope(m.apiKey, SimpleMessage(from, to, subject, body))));
              decode(x.reply.bytes.value).value == [r.response]
    ensures var x := Execute(env, m, SendPath, Some(SimpleEnvelope(m.apiKey, SimpleMessage(from, to, subject, body))));
            r.sent == x.sent
    ensures var x := Execute(env, m, SendPath, Some(SimpleEnvelope(m.apiKey, SimpleMessage(from, to, subject, body))));
            x.reply.err.Some? ==> r.err == Some(Execution(x.reply.err.value))
    ensures var x := Execute(env, m, SendPath, Some(SimpleEnvelope(m.apiKey, SimpleMessage(from, to, subject, body))));
            x.reply.bytes.Some? && decode(x.reply.bytes.value).Err? ==>
              r.err == Some(Decoding(decode(x.reply.bytes.value).error))
    ensures var x := Execute(env, m, SendPath, Some(SimpleEnvelope(m.apiKey, SimpleMessage(from, to, subject, body))));
            x.reply.bytes.Some? && decode(x.reply.bytes.value).Ok? && |decode(x.reply.bytes.value).value| != 1 ==>
              r.err == Some(ResponseCount(decode(x.reply.bytes.value).value))
  {
    var x := Execute(env, m, SendPath, Some(SimpleEnvelope(m.apiKey, SimpleMessage(from, to, subject, body))));
    if x.reply.err.Some? then SimpleResult(x.sent, ZeroResponse, Some(Execution(x.reply.err.value)))
    else
      match decode(x.reply.bytes.value)
      case Err(c) => SimpleResult(x.sent, ZeroResponse, Some(Decoding(c)))
      case Ok(ret) =>
        if |ret| != 1 then SimpleResult(x.sent, ZeroResponse, Some(ResponseCount(ret)))
        else SimpleResult(x.sent, ret[0], None)
  }

  // ---------------------------------------------------------------------
  // Properties of the messages resource
  // ---------------------------------------------------------------------

  /** A formatted time is never empty, so `omitempty` never drops a time
      that was given: `send_at` is present exactly when `sendAt` is non-nil. */
  lemma SendAtPresentIffGiven(sendAt: Option<Timestamp.DateTime>)
    requires sendAt.Some? ==> Timestamp.Valid(sendAt.value)
    ensures SendAtText(sendAt) != "" <==> sendAt.Some?
  {
  }

  /** `Send` hands `execute` a payload, never nil, so it never reports an
      empty request. */
  lemma SendNeverEmptyRequest(env: Env<Envelope>, m: Mandrill, message: Option<Message>, async: bool,
                              ipPool: string, sendAt: Option<Timestamp.DateTime>, decode: ResponseDecoder)
    requires sendAt.Some? ==> Timestamp.Valid(sendAt.value)
    ensures Send(env, m, message, async, ipPool, sendAt, decode).err != Some(Execution(EmptyRequest))
  {
  }

  /** `execute`'s errors reach the caller of `Send` unchanged, with no
      responses: a corollary of `Send`'s contract, stated on its own. */
  lemma SendForwardsErrors(env: Env<Envelope>, m: Mandrill, message: Option<Message>, async: bool,
                           ipPool: string, sendAt: Option<Timestamp.DateTime>, decode: ResponseDecoder)
    requires sendAt.Some? ==> Timestamp.Valid(sendAt.value)
    requires Execute(env, m, SendPath, Some(SendEnvelope(m.apiKey, message, async, ipPool, sendAt))).reply.err.Some?
    ensures var r := Send(env, m, message, async, ipPool, sendAt, decode);
            r.err == Some(Execution(Execute(env, m, SendPath, Some(SendEnvelope(m.apiKey, message, async, ipPool, sendAt))).reply.err.value))
            && r.responses == []
  {
  }

  /** `execute`'s errors reach the caller of `SimpleSend` unchanged, with the
      zero response: a corollary of `SimpleSend`'s contract, stated on its own. */
  lemma SimpleSendForwardsErrors(env: Env<Envelope>, m: Mandrill, from: string, to: string, subject: string,
                                 body: string, decode: ResponseDecoder)
    requires Execute(env, m, SendPath, Some(SimpleEnvelope(m.apiKey, SimpleMessage(from, to, subject, body)))).reply.err.Some?
    ensures var r := SimpleSend(env, m, from, to, subject, body, decode);
            r.err == Some(Execution(Execute(env, m, SendPath, Some(SimpleEnvelope(m.apiKey, SimpleMessage(from, to, subject, body)))).reply.err.value))
            && r.response == ZeroResponse
  {
  }

  /** `SimpleSend` puts on the wire exactly what `Send` would for its
      message with no options set, and succeeds exactly when that `Send`
      succeeds with a single response, which it then returns. */
  lemma SimpleSendIsSend(env: Env<Envelope>, m: Mandrill, from: string, to: string, subject: string,
                         body: string, decode: ResponseDecoder)
    ensures var msg := SimpleMessage(from, to, subject, body);
            var s := Send(env, m, Some(msg), false, "", None, decode);
            var r := SimpleSend(env, m, from, to, subject, body, decode);
            && r.sent == s.sent
            && (r.err.None? <==> s.err.None? && |s.responses| == 1)
            && (r.err.None? ==> s.responses == [r.response])
  {
    var msg := SimpleMessage(from, to, subject, body);
    assert SendEnvelope(m.apiKey, Some(msg), false, "", None) == SimpleEnvelope(m.apiKey, msg);
  }

  /** An empty response list is an error too, despite the message's "more
      than one" wording: a corollary of `SimpleSend`'s count clause. */
  lemma NoResponseIsAnError(env: Env<Envelope>, m: Mandrill, from: string, to: string, subject: string,
                            body: string, decode: ResponseDecoder)
    requires var x := Execute(env, m, SendPath, Some(SimpleEnvelope(m.apiKey, SimpleMessage(from, to, subject, body))));
             x.reply.bytes.Some? && decode(x.reply.bytes.value) == Ok([])
    ensures SimpleSend(env, m, from, to, subject, body, decode) ==
              SimpleResult(Execute(env, m, SendPath, Some(SimpleEnvelope(m.apiKey, SimpleMessage(from, to, subject, body)))).sent,
                           ZeroResponse, Some(ResponseCount([])))
  {
  }

  /** The request `Send` puts on the wire goes to the send endpoint. */
  lemma SendUrl(env: Env<Envelope>, m: Mandrill, message: Option<Message>, async: bool,
                ipPool: string, sendAt: Option<Timestamp.DateTime>, decode: ResponseDecoder)
    requires sendAt.Some? ==> Timestamp.Valid(sendAt.value)
    ensures var r := Send(env, m, message, async, ipPool, sendAt, decode);
            r.sent.Some? ==> r.sent.value.url == ApiBaseUrl + SendPath
                             && r.sent.value.url[|ApiBaseUrl| - 1..|ApiBaseUrl| + 1] == "//"
  {
    DoubledSlash(SendPath);
  }
}

=== FILE: outcomes.dfy ===
/** Failure-compatible wrappers shared by the rest of the model: `Option`
    for a Go value that may be nil, `Result` for a Go `(value, error)` pair
    whose two halves are never both meaningful. */
module Outcomes {

  datatype Option<+T> = None | Some(value: T) {

    predicate IsFailure() {
      None?
    }

    function PropagateFailure<U>(): Option<U>
      requires None?
    {
      None
    }

    function Extract(): T
      requires Some?
    {
      value
    }
  }

  datatype Result<+T, +E> = Ok(value: T) | Err(error: E) {

    predicate IsFailure() {
      Err?
    }

    function PropagateFailure<U>(): Result<U, E>
      requires Err?
    {
      Err(error)
    }

    function Extract(): T
      requires Ok?
    {
      value
    }
  }
}

=== FILE: timestamp.dfy ===
/** The vendor's timestamp convention: `FromMandrillTime` parses a
    `YYYY-MM-DD HH:MM:SS` string as a UTC time, and `ToMandrillTime` converts
    a time to UTC and formats it the same way. Both are one-line calls of
    Go's `time.Parse` / `Time.Format` with the layout `2006-01-02 15:04:05`,
    so this module models what those library routines do with that layout. */
module Timestamp {
  import opened Outcomes
  import opened Decimal
  import opened Calendar

  /** A Go `time.Time`: wall-clock fields in a zone whose offset is
      `offset` seconds east of UTC. */
  datatype DateTime = DateTime(
    year: int, month: int, day: int,
    hour: int, minute: int, second: int, nanos: int,
    offset: int)

  /** The ranges every `time.Time` value keeps its fields in. */
  predicate Valid(t: DateTime) {
    && ValidDate(DateOf(t))
    && 0 <= t.hour < 24 && 0 <= t.minute < 60 && 0 <= t.second < 60
    && 0 <= t.nanos < 1_000_000_000
  }

  function DateOf(t: DateTime): Date {
    Date(t.year, t.month, t.day)
  }

  const SecondsPerDay := 86400

  /** The instant `t` denotes, in whole seconds from 0000-01-01 00:00:00 UTC;
      an independent reference for the conversion to UTC. */
  function Instant(t: DateTime): int
    requires Valid(t)
  {
    DayNumber(DateOf(t)) * SecondsPerDay + t.hour * 3600 + t.minute * 60 + t.second - t.offset
  }

  /** Go's `t.UTC()`: subtract the zone offset from the time of day and
      carry or borrow whole days into the date. */
  function ToUtc(t: DateTime): (u: DateTime)
    requires Valid(t)
    ensures Valid(u) && u.offset == 0 && u.nanos == t.nanos
  {
    var secs := t.hour * 3600 + t.minute * 60 + t.second - t.offset;
    var d := AddDays(DateOf(t), secs / SecondsPerDay);
    var sod := secs % SecondsPerDay;
    DateTime(d.year, d.month, d.day, sod / 3600, sod % 3600 / 60, sod % 60, t.nanos, 0)
  }

  /** `t` with its fractional second dropped. */
  function Truncate(t: DateTime): DateTime {
    t.(nanos := 0)
  }

  // ---------------------------------------------------------------------
  // Formatting (ToMandrillTime, mandrill.go:104-106)
  // ---------------------------------------------------------------------

  /** `Format` with the layout `2006-01-02 15:04:05` applied to fields
      already in UTC: the year through `appendInt(year, 4)`, every other
      field as two zero-padded digits. */
  function FormatFields(u: DateTime): string {
    AppendInt(u.year, 4) + "-" + AppendInt(u.month, 2) + "-" + AppendInt(u.day, 2)
      + " " + AppendInt(u.hour, 2) + ":" + AppendInt(u.minute, 2) + ":" + AppendInt(u.second, 2)
  }

  /** `ToMandrillTime(t)`: `t.UTC().Format("2006-01-02 15:04:05")`. */
  function Format(t: DateTime): (s: string)
    requires Valid(t)
    ensures |s| >= 19
    ensures 0 <= ToUtc(t).year <= 9999 ==> CanonicalShape(s) && FieldsOf(s) == Truncate(ToUtc(t))
  {
    var u := ToUtc(t);
    LengthAtLeast(u.year, 4);
    LengthAtLeast(u.month, 2);
    LengthAtLeast(u.day, 2);
    LengthAtLeast(u.hour, 2);
    LengthAtLeast(u.minute, 2);
    LengthAtLeast(u.second, 2);
    if 0 <= u.year <= 9999 then
      FormatCanonical(u);
      FormatFields(u)
    else
      FormatFields(u)
  }

  lemma LengthAtLeast(x: int, width: nat)
    ensures |AppendInt(x, width)| >= width
  {
    var m := if x < 0 then -x else x;
    PaddedLength(m, width);
  }

  lemma {:induction false} PaddedLength(n: nat, width: nat)
    ensures |Padded(n, width)| >= width
    decreases n + width
  {
    if !(n == 0 && width == 0) {
      PaddedLength(n / 10, if width > 0 then width - 1 else 0);
    }
  }

  // ---------------------------------------------------------------------
  // Parsing (FromMandrillTime, mandrill.go:98-101)
  // ---------------------------------------------------------------------

  /** Why `time.Parse` rejected its input: a layout element (`"2006"`,
      `"01"`, ... or a literal separator) the text does not match, a field
      outside its range, or text left over after the seconds. */
  datatype ParseError =
    | CannotParse(element: string)
    | OutOfRange(field: string)
    | ExtraText(rest: string)

  /** A number read off the front of the text, and the text after it. */
  datatype Scanned = Scanned(n: int, rest: string)

  /** The layout element `2006`: exactly four characters, the first a digit
      and (for `atoi` to accept them) all of them digits. */
  function LongYear(v: string): Result<Scanned, ParseError> {
    if |v| < 4 || !IsDigit(v[0]) || !AllDigits(v[..4]) then Err(CannotParse("2006"))
    else Ok(Scanned(Value(v[..4]), v[4..]))
  }

  /** Go's `getnum`: one or two leading digits; with `fixed`, exactly two. */
  function GetNum(v: string, fixed: bool, element: string): (r: Result<Scanned, ParseError>)
    ensures r.Ok? ==> 0 <= r.value.n <= 99
  {
    if |v| == 0 || !IsDigit(v[0]) then Err(CannotParse(element))
    else if |v| == 1 || !IsDigit(v[1]) then
      (if fixed then Err(CannotParse(element)) else Ok(Scanned(DigitValue(v[0]), v[1..])))
    else Ok(Scanned(DigitValue(v[0]) * 10 + DigitValue(v[1]), v[2..]))
  }

  /** A number that must lie in `lo..hi` once it has been read. */
  function InRange(r: Result<Scanned, ParseError>, lo: int, hi: int, field: string): (r': Result<Scanned, ParseError>)
    ensures r'.Ok? ==> r' == r && lo <= r.value.n <= hi
  {
    if r.Ok? && !(lo <= r.value.n <= hi) then Err(OutOfRange(field)) else r
  }

  /** Go's `cutspace`: drop leading spaces. */
  function CutSpace(v: string): (r: string)
    ensures |r| <= |v|
    ensures |v| > 0 && v[0] == ' ' ==> |r| < |v|
  {
    if |v| > 0 && v[0] == ' ' then CutSpace(v[1..]) else v
  }

  /** Go's `skip`: match the literal text of the layout. A space in the
      layout matches any run of spaces in the value (or none at its end). */
  function Skip(value: string, prefix: string): Result<string, ParseError>
    decreases |prefix|
  {
    if |prefix| == 0 then Ok(value)
    else if prefix[0] == ' ' then
      if |value| > 0 && value[0] != ' ' then Err(CannotParse(prefix))
      else Skip(CutSpace(value), CutSpace(prefix))
    else if |value| == 0 || value[0] != prefix[0] then Err(CannotParse(prefix))
    else Skip(value[1..], prefix[1..])
  }

  /** The number of digits at the front of `v`. */
  function DigitRun(v: string): (n: nat)
    ensures n <= |v| && AllDigits(v[..n]) && (n == |v| || !IsDigit(v[n]))
  {
    if |v| > 0 && IsDigit(v[0]) then
      var k := DigitRun(v[1..]);
      assert v[..k + 1] == [v[0]] + v[1..][..k];
      k + 1
    else 0
  }

  /** Seconds and their optional fraction. The layout has no fractional
      element, but Go still accepts a '.' or ',' followed by digits straight
      after the seconds: the first nine digits give the nanoseconds and any
      further digits are read and dropped. */
  datatype Seconds = Seconds(second: int, nanos: int, rest: string)

  function SecondsField(v: string): (r: Result<Seconds, ParseError>)
    ensures r.Ok? ==> 0 <= r.value.second <= 59 && 0 <= r.value.nanos < 1_000_000_000
  {
    var s :- InRange(GetNum(v, true, "05"), 0, 59, "second");
    Ok(Fraction(s.n, s.rest))
  }

  /** What follows the seconds: a fraction if one starts there, else nothing. */
  function Fraction(second: int, w: string): (r: Seconds)
    ensures r.second == second && 0 <= r.nanos < 1_000_000_000 && |r.rest| <= |w|
  {
    if |w| >= 2 && (w[0] == '.' || w[0] == ',') && IsDigit(w[1]) then
      var n := 1 + DigitRun(w[1..]);
      var kept := if n > 10 then 10 else n;
      assert AllDigits(w[1..kept]) by {
        assert w[1..kept] == w[1..][..DigitRun(w[1..])][..kept - 1];
      }
      Seconds(second, Nanos(w[1..kept]), w[n..])
    else Seconds(second, 0, w)
  }

  /** The nanoseconds a fraction of at most nine digits stands for: its
      digits read as a number padded with zeros to nine places. */
  function Nanos(f: string): (n: int)
    requires AllDigits(f) && |f| <= 9
    ensures 0 <= n < 1_000_000_000
  {
    NanosBound(f);
    Value(f) * Pow10(9 - |f|)
  }

  /** Trailing zeros of a fraction do not change its value. */
  lemma NanosTrailingZero(f: string)
    requires AllDigits(f) && |f| <= 8
    ensures AllDigits(f + "0") && Nanos(f + "0") == Nanos(f)
  {
    var g := f + "0";
    assert g[..|g| - 1] == f;
    assert Value(g) == Value(f) * 10;
    assert Pow10(9 - |f|) == 10 * Pow10(9 - |g|);
    MulShift(Value(f), 10, Pow10(9 - |g|));
  }

  lemma MulShift(a: int, b: int, c: int)
    ensures (a * b) * c == a * (b * c)
  {
  }

  /** Up to nine fraction digits scaled to nanoseconds stay below one second. */
  lemma NanosBound(f: string)
    requires AllDigits(f) && |f| <= 9
    ensures Value(f) * Pow10(9 - |f|) < 1_000_000_000
  {
    ValueBound(f);
    PowAdd(|f|, 9 - |f|);
    assert Pow10(9) == 1_000_000_000;
    MulBelow(Value(f), Pow10(|f|), Pow10(9 - |f|));
  }

  lemma MulBelow(a: nat, b: nat, p: nat)
    requires a < b && p >= 1
    ensures a * p < b * p
  {
  }

  lemma {:induction false} PowAdd(a: nat, b: nat)
    ensures Pow10(a) * Pow10(b) == Pow10(a + b)
  {
    if a > 0 {
      PowAdd(a - 1, b);
    }
  }

  /** The date half of the layout, `2006-01-02`. The day is only checked
      against the month once the whole text has been read. */
  datatype DatePart = DatePart(year: int, month: int, day: int, rest: string)

  function ParseDate(s: string): (r: Result<DatePart, ParseError>)
    ensures r.Ok? ==> 0 <= r.value.year <= 9999 && 1 <= r.value.month <= 12 && 0 <= r.value.day <= 99
  {
    var y :- LongYear(s);
    ValueBound(s[..4]);
    assert Pow10(4) == 10000;
    var v1 :- Skip(y.rest, "-");
    var mo :- InRange(GetNum(v1, true, "01"), 1, 12, "month");
    var v2 :- Skip(mo.rest, "-");
    var d :- GetNum(v2, true, "02");
    Ok(DatePart(y.n, mo.n, d.n, d.rest))
  }

  /** The clock half of the layout, ` 15:04:05`, with any fraction. */
  datatype ClockPart = ClockPart(hour: int, minute: int, second: int, nanos: int, rest: string)

  function ParseClock(v: string): (r: Result<ClockPart, ParseError>)
    ensures r.Ok? ==> && 0 <= r.value.hour <= 23 && 0 <= r.value.minute <= 59
                      && 0 <= r.value.second <= 59 && 0 <= r.value.nanos < 1_000_000_000
  {
    var v3 :- Skip(v, " ");
    ClockFields(v3)
  }

  /** `15:04:05` once the separating space has been matched. */
  function ClockFields(v3: string): (r: Result<ClockPart, ParseError>)
    ensures r.Ok? ==> && 0 <= r.value.hour <= 23 && 0 <= r.value.minute <= 59
                      && 0 <= r.value.second <= 59 && 0 <= r.value.nanos < 1_000_000_000
  {
    var h :- InRange(GetNum(v3, false, "15"), 0, 23, "hour");
    AfterHour(h.n, h.rest)
  }

  /** `:04:05` after an hour has been read. */
  function AfterHour(hour: int, v4: string): (r: Result<ClockPart, ParseError>)
    ensures r.Ok? ==> && r.value.hour == hour && 0 <= r.value.minute <= 59
                      && 0 <= r.value.second <= 59 && 0 <= r.value.nanos < 1_000_000_000
  {
    var v4' :- Skip(v4, ":");
    var mi :- InRange(GetNum(v4', true, "04"), 0, 59, "minute");
    var v5 :- Skip(mi.rest, ":");
    var sec :- SecondsField(v5);
    Ok(ClockPart(hour, mi.n, sec.second, sec.nanos, sec.rest))
  }

  /** `FromMandrillTime(s)`: `time.Parse("2006-01-02 15:04:05", s)`, which
      reads each layout element in turn, then rejects leftover text, then
      checks the day against the month, and yields a time in UTC. */
  function Parse(s: string): (r: Result<DateTime, ParseError>)
    ensures r.Ok? ==> Valid(r.value) && r.value.offset == 0
  {
    var date :- ParseDate(s);
    var clock :- ParseClock(date.rest);
    Assemble(date, clock)
  }

  /** The checks made once every layout element has been read: leftover
      text first, then the day against its month and year. */
  function Assemble(date: DatePart, clock: ClockPart): (r: Result<DateTime, ParseError>)
    requires 1 <= date.month <= 12
    requires 0 <= clock.hour <= 23 && 0 <= clock.minute <= 59 && 0 <= clock.second <= 59
    requires 0 <= clock.nanos < 1_000_000_000
    ensures r.Ok? <==> clock.rest == "" && 1 <= date.day <= DaysIn(date.month, date.year)
    ensures r.Ok? ==> Valid(r.value) && r.value.offset == 0
    ensures r.Ok? ==> r.value == DateTime(date.year, date.month, date.day, clock.hour, clock.minute,
                                          clock.second, clock.nanos, 0)
  {
    if |clock.rest| != 0 then Err(ExtraText(clock.rest))
    else if date.day < 1 || date.day > DaysIn(date.month, date.year) then Err(OutOfRange("day"))
    else Ok(DateTime(date.year, date.month, date.day, clock.hour, clock.minute, clock.second, clock.nanos, 0))
  }

  // ---------------------------------------------------------------------
  // Conversion to UTC keeps the instant
  // ---------------------------------------------------------------------

  /** Converting to UTC never moves the instant a time denotes. */
  lemma ToUtcKeepsInstant(t: DateTime)
    requires Valid(t)
    ensures Instant(ToUtc(t)) == Instant(t)
  {
    var secs := t.hour * 3600 + t.minute * 60 + t.second - t.offset;
    var k := secs / SecondsPerDay;
    var sod := secs % SecondsPerDay;
    var n := DayNumber(DateOf(t));
    AddDaysNumber(DateOf(t), k);
    SplitTimeOfDay(sod);
    var u := ToUtc(t);
    assert u.hour * 3600 + u.minute * 60 + u.second == sod;
    assert DayNumber(DateOf(u)) == n + k;
    calc {
      Instant(u);
      (n + k) * SecondsPerDay + sod;
      { assert (n + k) * SecondsPerDay == n * SecondsPerDay + k * SecondsPerDay; }
      n * SecondsPerDay + (k * SecondsPerDay + sod);
      n * SecondsPerDay + secs;
      Instant(t);
    }
  }

  /** A second of the day splits back into hours, minutes and seconds. */
  lemma SplitTimeOfDay(sod: int)
    requires 0 <= sod
    ensures sod == sod / 3600 * 3600 + sod % 3600 / 60 * 60 + sod % 60
  {
    var a, b := sod / 3600, sod % 3600;
    var c, e := b / 60, b % 60;
    assert sod == 60 * (60 * a + c) + e;
    EuclidUnique(sod, 60, 60 * a + c, e);
  }

  /** A time already in UTC is left exactly as it is. */
  lemma ToUtcOfUtc(t: DateTime)
    requires Valid(t) && t.offset == 0
    ensures ToUtc(t) == t
  {
    var secs := t.hour * 3600 + t.minute * 60 + t.second;
    EuclidUnique(secs, SecondsPerDay, 0, secs);
    EuclidUnique(secs, 3600, t.hour, t.minute * 60 + t.second);
    EuclidUnique(t.minute * 60 + t.second, 60, t.minute, t.second);
    EuclidUnique(secs, 60, t.hour * 60 + t.minute, t.second);
  }

  /** Two times denote the same instant (to the nanosecond) exactly when
      they agree once both are converted to UTC. */
  lemma SameInstantSameUtc(t1: DateTime, t2: DateTime)
    requires Valid(t1) && Valid(t2)
    ensures Instant(t1) == Instant(t2) && t1.nanos == t2.nanos <==> ToUtc(t1) == ToUtc(t2)
  {
    ToUtcKeepsInstant(t1);
    ToUtcKeepsInstant(t2);
    var u1, u2 := ToUtc(t1), ToUtc(t2);
    if Instant(u1) == Instant(u2) {
      UtcInstantInjective(u1, u2);
    }
  }

  lemma UtcInstantInjective(u1: DateTime, u2: DateTime)
    requires Valid(u1) && Valid(u2) && u1.offset == 0 && u2.offset == 0
    requires Instant(u1) == Instant(u2)
    ensures DateOf(u1) == DateOf(u2)
    ensures u1.hour == u2.hour && u1.minute == u2.minute && u1.second == u2.second
  {
    var s1 := u1.hour * 3600 + u1.minute * 60 + u1.second;
    var s2 := u2.hour * 3600 + u2.minute * 60 + u2.second;
    EuclidUnique(Instant(u1), SecondsPerDay, DayNumber(DateOf(u1)), s1);
    EuclidUnique(Instant(u2), SecondsPerDay, DayNumber(DateOf(u2)), s2);
    DayNumberInjective(DateOf(u1), DateOf(u2));
    EuclidUnique(s1, 3600, u1.hour, u1.minute * 60 + u1.second);
    EuclidUnique(s2, 3600, u2.hour, u2.minute * 60 + u2.second);
    EuclidUnique(u1.minute * 60 + u1.second, 60, u1.minute, u1.second);
    EuclidUnique(u2.minute * 60 + u2.second, 60, u2.minute, u2.second);
  }

  // ---------------------------------------------------------------------
  // Round trips between the parser and the formatter
  // ---------------------------------------------------------------------

  /** The exact 19-character shape `YYYY-MM-DD HH:MM:SS` with digits in
      every numeric position. */
  predicate CanonicalShape(s: string) {
    && |s| == 19
    && s[4] == '-' && s[7] == '-' && s[10] == ' ' && s[13] == ':' && s[16] == ':'
    && AllDigits(s[0..4]) && AllDigits(s[5..7]) && AllDigits(s[8..10])
    && AllDigits(s[11..13]) && AllDigits(s[14..16]) && AllDigits(s[17..19])
  }

  /** The UTC time whose fields a canonically shaped string spells out. */
  function FieldsOf(s: string): DateTime
    requires CanonicalShape(s)
  {
    DateTime(Value(s[0..4]), Value(s[5..7]), Value(s[8..10]),
             Value(s[11..13]), Value(s[14..16]), Value(s[17..19]), 0, 0)
  }

  lemma TwoDigits(v: string, fixed: bool, element: string)
    requires |v| >= 2 && AllDigits(v[..2])
    ensures GetNum(v, fixed, element) == Ok(Scanned(Value(v[..2]), v[2..]))
  {
    var d := v[..2];
    assert IsDigit(d[0]) && IsDigit(d[1]);
    assert d[..1][..0] == [] && d[..1][0] == v[0] && d[1] == v[1];
    assert Value(d[..1]) == DigitValue(v[0]);
  }

  /** On a canonically shaped string the parser succeeds exactly when the
      fields it spells out are in range, and then yields those fields. */
  lemma ParseCanonical(s: string)
    requires CanonicalShape(s)
    ensures Parse(s).Ok? <==> Valid(FieldsOf(s))
    ensures Parse(s).Ok? ==> Parse(s).value == FieldsOf(s)
  {
    CanonicalErrors(s);
    RangeErrorExactlyInvalid(FieldsOf(s));
  }

  /** Formatting the result of parsing a canonically shaped string gives
      back that string. */
  lemma FormatParseRoundTrip(s: string)
    requires CanonicalShape(s) && Parse(s).Ok?
    ensures Format(Parse(s).value) == s
  {
    ParseCanonical(s);
    var t := FieldsOf(s);
    ToUtcOfUtc(t);
    FieldsSpellCanonical(s);
  }

  /** Writing out the fields of a canonically shaped string reproduces it. */
  lemma FieldsSpellCanonical(s: string)
    requires CanonicalShape(s)
    ensures FormatFields(FieldsOf(s)) == s
  {
    var y, mo, d, h, mi, se := s[0..4], s[5..7], s[8..10], s[11..13], s[14..16], s[17..19];
    PaddedOfValue(y);
    PaddedOfValue(mo);
    PaddedOfValue(d);
    PaddedOfValue(h);
    PaddedOfValue(mi);
    PaddedOfValue(se);
    assert FormatFields(FieldsOf(s)) == Layout(y, mo, d, h, mi, se);
    LayoutSlices(y, mo, d, h, mi, se);
    var f := Layout(y, mo, d, h, mi, se);
    assert forall i | 0 <= i < 19 :: f[i] == s[i] by {
      forall i | 0 <= i < 19
        ensures f[i] == s[i]
      {
        if i < 4 {
          assert f[i] == f[0..4][i];
        } else if 4 < i < 7 {
          assert f[i] == f[5..7][i - 5];
        } else if 7 < i < 10 {
          assert f[i] == f[8..10][i - 8];
        } else if 10 < i < 13 {
          assert f[i] == f[11..13][i - 11];
        } else if 13 < i < 16 {
          assert f[i] == f[14..16][i - 14];
        } else if 16 < i {
          assert f[i] == f[17..19][i - 17];
        }
      }
    }
  }

  /** The layout `2006-01-02 15:04:05` filled in with the given numerals. */
  function Layout(y: string, mo: string, d: string, h: string, mi: string, se: string): string {
    y + "-" + mo + "-" + d + " " + h + ":" + mi + ":" + se
  }

  lemma LayoutSlices(y: string, mo: string, d: string, h: string, mi: string, se: string)
    requires |y| == 4 && |mo| == 2 && |d| == 2 && |h| == 2 && |mi| == 2 && |se| == 2
    ensures var f := Layout(y, mo, d, h, mi, se);
      && |f| == 19
      && f[4] == '-' && f[7] == '-' && f[10] == ' ' && f[13] == ':' && f[16] == ':'
      && f[0..4] == y && f[5..7] == mo && f[8..10] == d
      && f[11..13] == h && f[14..16] == mi && f[17..19] == se
  {
    var date := y + "-" + mo + "-" + d;
    var clock := h + ":" + mi + ":" + se;
    assert Layout(y, mo, d, h, mi, se) == date + " " + clock;
    assert date[0..4] == y && date[5..7] == mo && date[8..10] == d;
    assert clock[0..2] == h && clock[3..5] == mi && clock[6..8] == se;
    var f := date + " " + clock;
    assert f[..10] == date && f[11..] == clock;
    assert f[0..4] == date[0..4] && f[5..7] == date[5..7] && f[8..10] == date[8..10];
    assert f[11..13] == clock[0..2] && f[14..16] == clock[3..5] && f[17..19] == clock[6..8];
  }

  lemma TwoDigitField(n: int)
    requires 0 <= n < 100
    ensures |Padded(n, 2)| == 2 && Value(Padded(n, 2)) == n
  {
    assert Pow10(2) == 100;
    LengthOfPadded(n, 2);
    ValueOfPadded(n, 2);
  }

  /** The formatted fields of a UTC time with a four-digit year have the
      canonical shape and spell out that time without its fraction. */
  lemma FormatCanonical(u: DateTime)
    requires Valid(u) && u.offset == 0 && 0 <= u.year <= 9999
    ensures CanonicalShape(FormatFields(u)) && FieldsOf(FormatFields(u)) == Truncate(u)
  {
    assert Pow10(4) == 10000;
    LengthOfPadded(u.year, 4);
    ValueOfPadded(u.year, 4);
    TwoDigitField(u.month);
    TwoDigitField(u.day);
    TwoDigitField(u.hour);
    TwoDigitField(u.minute);
    TwoDigitField(u.second);
    var y, mo, d := Padded(u.year, 4), Padded(u.month, 2), Padded(u.day, 2);
    var h, mi, se := Padded(u.hour, 2), Padded(u.minute, 2), Padded(u.second, 2);
    assert FormatFields(u) == Layout(y, mo, d, h, mi, se);
    LayoutSlices(y, mo, d, h, mi, se);
  }

  lemma {:induction false} PaddedLongerThan(n: nat, width: nat, k: nat)
    requires n >= Pow10(k)
    ensures |Padded(n, width)| > k
    decreases k
  {
    if k > 0 {
      PaddedLongerThan(n / 10, if width > 0 then width - 1 else 0, k - 1);
    }
  }

  /** Parsing a formatted time succeeds exactly when its UTC year has four
      digits, and then gives back the time in UTC without its fraction. */
  lemma ParseFormatRoundTrip(t: DateTime)
    requires Valid(t)
    ensures Parse(Format(t)).Ok? <==> 0 <= ToUtc(t).year <= 9999
    ensures Parse(Format(t)).Ok? ==> Parse(Format(t)).value == Truncate(ToUtc(t))
  {
    var u := ToUtc(t);
    if 0 <= u.year <= 9999 {
      FormatCanonical(u);
      ParseCanonical(FormatFields(u));
    } else if u.year < 0 {
      NegativeYear(u);
    } else {
      WideYear(u);
    }
  }

  /** A negative year is written with a leading '-', which is not a digit. */
  lemma NegativeYear(u: DateTime)
    requires u.year < 0
    ensures Parse(FormatFields(u)) == Err(CannotParse("2006"))
  {
    var f := FormatFields(u);
    assert f[0] == '-';
    YearNotFourDigits(f);
  }

  /** A year past 9999 is written with five or more digits; the fifth
      stands where the layout has its first dash. */
  lemma WideYear(u: DateTime)
    requires u.year > 9999
    ensures Parse(FormatFields(u)) == Err(CannotParse("-"))
  {
    var f := FormatFields(u);
    assert Pow10(4) == 10000;
    PaddedLongerThan(u.year, 4, 4);
    var y := Padded(u.year, 4);
    assert f[..|y|] == y;
    assert f[..4] == y[..4] && f[4] == y[4];
    YearDashMissing(f);
  }

  // ---------------------------------------------------------------------
  // Worked examples
  // ---------------------------------------------------------------------

  /** "2015-12-04 12:15:30" parses to that wall-clock time in UTC. */
  lemma ParseExample()
    ensures Parse("2015-12-04 12:15:30") == Ok(DateTime(2015, 12, 4, 12, 15, 30, 0, 0))
  {
    ExampleFields();
    ParseCanonical("2015-12-04 12:15:30");
  }

  lemma ExampleFields()
    ensures CanonicalShape("2015-12-04 12:15:30")
    ensures FieldsOf("2015-12-04 12:15:30") == DateTime(2015, 12, 4, 12, 15, 30, 0, 0)
  {
    ExampleLayout();
    ExampleNumerals();
    LayoutFields("2015", "12", "04", "12", "15", "30");
  }

  lemma ExampleLayout()
    ensures "2015-12-04 12:15:30" == Layout("2015", "12", "04", "12", "15", "30")
    ensures "2015-12-04 17:15:30" == Layout("2015", "12", "04", "17", "15", "30")
  {
  }

  lemma ExampleNumerals()
    ensures AllDigits("2015") && AllDigits("12") && AllDigits("04") && AllDigits("17") && AllDigits("15") && AllDigits("30")
    ensures Value("2015") == 2015 && Value("12") == 12 && Value("04") == 4
    ensures Value("17") == 17 && Value("15") == 15 && Value("30") == 30
  {
    ValueOfFour("2015");
    ValueOfTwo("12");
    ValueOfTwo("04");
    ValueOfTwo("17");
    ValueOfTwo("15");
    ValueOfTwo("30");
  }

  /** Numerals of the right widths fill the layout into a canonically shaped
      text that spells out their values. */
  lemma LayoutFields(y: string, mo: string, d: string, h: string, mi: string, se: string)
    requires |y| == 4 && |mo| == 2 && |d| == 2 && |h| == 2 && |mi| == 2 && |se| == 2
    requires AllDigits(y) && AllDigits(mo) && AllDigits(d) && AllDigits(h) && AllDigits(mi) && AllDigits(se)
    ensures CanonicalShape(Layout(y, mo, d, h, mi, se))
    ensures FieldsOf(Layout(y, mo, d, h, mi, se)) ==
              DateTime(Value(y), Value(mo), Value(d), Value(h), Value(mi), Value(se), 0, 0)
  {
    LayoutSlices(y, mo, d, h, mi, se);
  }

  /** 12:15:30 on 2015-12-04 five hours west of UTC formats as 17:15:30 UTC. */
  lemma FormatExample()
    ensures Format(DateTime(2015, 12, 4, 12, 15, 30, 0, -5 * 3600)) == "2015-12-04 17:15:30"
  {
    ExampleUtc();
    UtcExampleFields();
    FieldsSpellCanonical("2015-12-04 17:15:30");
  }

  lemma ExampleUtc()
    ensures ToUtc(DateTime(2015, 12, 4, 12, 15, 30, 0, -5 * 3600)) == DateTime(2015, 12, 4, 17, 15, 30, 0, 0)
  {
  }

  lemma UtcExampleFields()
    ensures CanonicalShape("2015-12-04 17:15:30")
    ensures FieldsOf("2015-12-04 17:15:30") == DateTime(2015, 12, 4, 17, 15, 30, 0, 0)
  {
    ExampleLayout();
    ExampleNumerals();
    LayoutFields("2015", "12", "04", "17", "15", "30");
  }

  /** A UTC offset can carry the conversion across a year boundary. */
  lemma ToUtcCarriesIntoNextYear()
    ensures ToUtc(DateTime(2015, 12, 31, 22, 0, 0, 0, -5 * 3600)) == DateTime(2016, 1, 1, 3, 0, 0, 0, 0)
  {
    var t := DateTime(2015, 12, 31, 22, 0, 0, 0, -5 * 3600);
    assert NextDay(DateOf(t)) == Date(2016, 1, 1);
    assert AddDays(DateOf(t), 1) == AddDays(Date(2016, 1, 1), 0) == Date(2016, 1, 1);
  }

  // ---------------------------------------------------------------------
  // What the parser accepts beyond the layout, and what it rejects
  // ---------------------------------------------------------------------

  /** `YYYY-MM-DD` at the front of a text. */
  predicate DateShape(s: string) {
    && |s| >= 10 && s[4] == '-' && s[7] == '-'
    && AllDigits(s[0..4]) && AllDigits(s[5..7]) && AllDigits(s[8..10])
  }

  /** `HH:MM:SS` at the front of a text. */
  predicate ClockShape(v: string) {
    && |v| >= 8 && v[2] == ':' && v[5] == ':'
    && AllDigits(v[0..2]) && AllDigits(v[3..5]) && AllDigits(v[6..8])
  }

  /** The date half is read off the front; only the month is checked now. */
  lemma DateHalf(s: string)
    requires DateShape(s)
    ensures ParseDate(s) == if 1 <= Value(s[5..7]) <= 12
                            then Ok(DatePart(Value(s[0..4]), Value(s[5..7]), Value(s[8..10]), s[10..]))
                            else Err(OutOfRange("month"))
  {
    assert IsDigit(s[0..4][0]);
    assert s[..4] == s[0..4];
    ValueBound(s[0..4]);
    assert LongYear(s) == Ok(Scanned(Value(s[0..4]), s[4..]));
    assert Skip(s[4..], "-") == Ok(s[5..]) by {
      assert s[4..][1..] == s[5..];
    }
    assert s[5..][..2] == s[5..7];
    TwoDigits(s[5..], true, "01");
    assert s[5..][2..] == s[7..];
    assert Skip(s[7..], "-") == Ok(s[8..]) by {
      assert s[7..][1..] == s[8..];
    }
    assert s[8..][..2] == s[8..10];
    TwoDigits(s[8..], true, "02");
    assert s[8..][2..] == s[10..];
  }

  /** The clock fields are read off the front, each range checked in turn. */
  lemma ClockHalf(v: string)
    requires ClockShape(v)
    ensures ClockFields(v) == if Value(v[0..2]) > 23 then Err(OutOfRange("hour"))
                              else AfterHour(Value(v[0..2]), v[2..])
  {
    assert v[..2] == v[0..2];
    TwoDigits(v, false, "15");
  }

  lemma MinuteSecond(hour: int, w: string)
    requires |w| >= 6 && w[0] == ':' && w[3] == ':' && AllDigits(w[1..3]) && AllDigits(w[4..6])
    ensures AfterHour(hour, w) ==
              if Value(w[1..3]) > 59 then Err(OutOfRange("minute"))
              else if Value(w[4..6]) > 59 then Err(OutOfRange("second"))
              else var f := Fraction(Value(w[4..6]), w[6..]);
                   Ok(ClockPart(hour, Value(w[1..3]), Value(w[4..6]), f.nanos, f.rest))
  {
    assert Skip(w, ":") == Ok(w[1..]) by {
      assert w[1..] == w[1..];
    }
    assert w[1..][..2] == w[1..3];
    TwoDigits(w[1..], true, "04");
    assert w[1..][2..] == w[3..];
    assert Skip(w[3..], ":") == Ok(w[4..]) by {
      assert w[3..][1..] == w[4..];
    }
    assert w[4..][..2] == w[4..6];
    TwoDigits(w[4..], true, "05");
    assert w[4..][2..] == w[6..];
  }

  /** `n` spaces. */
  function Spaces(n: nat): (r: string)
    ensures |r| == n
  {
    if n == 0 then "" else " " + Spaces(n - 1)
  }

  /** A layout space matches any positive run of spaces. */
  lemma {:induction false} SkipSpaces(n: nat, w: string)
    requires n >= 1 && (|w| == 0 || w[0] != ' ')
    ensures Skip(Spaces(n) + w, " ") == Ok(w)
  {
    CutSpaces(n, w);
    assert CutSpace(" ") == CutSpace(" "[1..]) == "";
  }

  lemma {:induction false} CutSpaces(n: nat, w: string)
    requires |w| == 0 || w[0] != ' '
    ensures CutSpace(Spaces(n) + w) == w
  {
    if n > 0 {
      assert (Spaces(n) + w)[1..] == Spaces(n - 1) + w;
      CutSpaces(n - 1, w);
    } else {
      assert Spaces(n) + w == w;
    }
  }

  /** The rest of a canonically shaped text after its date half. */
  lemma CanonicalHalves(s: string)
    requires CanonicalShape(s)
    ensures DateShape(s) && s[10..] == Spaces(1) + s[11..] && ClockShape(s[11..]) && s[11] != ' '
    ensures MinuteSecondShape(s[13..])
  {
    assert s[11..][0..2] == s[11..13] && s[11..][3..5] == s[14..16] && s[11..][6..8] == s[17..19];
    assert s[13..][1..3] == s[14..16] && s[13..][4..6] == s[17..19];
    assert IsDigit(s[11..13][0]);
  }

  predicate MinuteSecondShape(w: string) {
    |w| >= 6 && w[0] == ':' && w[3] == ':' && AllDigits(w[1..3]) && AllDigits(w[4..6])
  }

  /** Texts whose date halves agree in their fields and whose clock halves
      parse alike parse alike. */
  lemma SameHalves(s1: string, s2: string)
    requires ParseDate(s1).Err? ==> ParseDate(s2) == ParseDate(s1)
    requires ParseDate(s1).Ok? ==> && ParseDate(s2).Ok?
                                   && ParseDate(s1).value.(rest := "") == ParseDate(s2).value.(rest := "")
                                   && ParseClock(ParseDate(s1).value.rest) == ParseClock(ParseDate(s2).value.rest)
    ensures Parse(s1) == Parse(s2)
  {
  }

  /** Texts whose date halves agree in their fields and whose clock halves
      differ only in the nanoseconds parse alike but for those. */
  lemma OtherNanos(s1: string, s2: string, nanos: int)
    requires ParseDate(s1).Err? ==> ParseDate(s2) == ParseDate(s1)
    requires ParseDate(s1).Ok? ==> && ParseDate(s2).Ok?
                                   && ParseDate(s1).value.(rest := "") == ParseDate(s2).value.(rest := "")
    requires ParseDate(s1).Ok? ==>
               var c1, c2 := ParseClock(ParseDate(s1).value.rest), ParseClock(ParseDate(s2).value.rest);
               c2 == if c1.Ok? then Ok(c1.value.(nanos := nanos)) else c1
    ensures Parse(s2) == if Parse(s1).Ok? then Ok(Parse(s1).value.(nanos := nanos)) else Parse(s1)
  {
  }

  /** Only the first ten characters decide the date half. */
  lemma DatePrefixDecides(s1: string, s2: string)
    requires DateShape(s1) && DateShape(s2) && s1[..10] == s2[..10]
    ensures ParseDate(s1).Err? ==> ParseDate(s2) == ParseDate(s1)
    ensures ParseDate(s1).Ok? ==> ParseDate(s2) == Ok(ParseDate(s1).value.(rest := s2[10..]))
  {
    assert s1[0..4] == s2[0..4] && s1[5..7] == s2[5..7] && s1[8..10] == s2[8..10] by {
      assert s1[0..4] == s1[..10][0..4] && s2[0..4] == s2[..10][0..4];
      assert s1[5..7] == s1[..10][5..7] && s2[5..7] == s2[..10][5..7];
      assert s1[8..10] == s1[..10][8..10] && s2[8..10] == s2[..10][8..10];
    }
    DateHalf(s1);
    DateHalf(s2);
  }

  /** The date half of a canonically shaped text leaves the space and the clock. */
  lemma CanonicalDateRest(s: string)
    requires CanonicalShape(s)
    ensures ParseDate(s).Ok? ==> ParseDate(s).value.rest == Spaces(1) + s[11..]
  {
    CanonicalHalves(s);
    DateHalf(s);
  }

  lemma SpacedSlices(s: string, n: nat)
    requires CanonicalShape(s)
    ensures (s[..10] + Spaces(n) + s[11..])[..10] == s[..10]
    ensures (s[..10] + Spaces(n) + s[11..])[10..] == Spaces(n) + s[11..]
  {
    assert (s[..10] + Spaces(n) + s[11..])[..10] == s[..10];
  }

  lemma SpacedDateShape(s: string, n: nat)
    requires CanonicalShape(s) && n >= 1
    ensures DateShape(s[..10] + Spaces(n) + s[11..])
  {
    var s' := s[..10] + Spaces(n) + s[11..];
    CanonicalHalves(s);
    assert s'[0..4] == s[0..4] && s'[5..7] == s[5..7] && s'[8..10] == s[8..10];
  }

  lemma SpacedClock(s: string, n: nat)
    requires CanonicalShape(s) && n >= 1
    ensures ParseClock(Spaces(n) + s[11..]) == ParseClock(Spaces(1) + s[11..])
  {
    CanonicalHalves(s);
    SkipSpaces(n, s[11..]);
    SkipSpaces(1, s[11..]);
  }

  /** Any run of spaces may stand for the layout's single space. */
  lemma LenientSpaces(s: string, n: nat)
    requires CanonicalShape(s) && n >= 1
    ensures Parse(s[..10] + Spaces(n) + s[11..]) == Parse(s)
  {
    var s' := s[..10] + Spaces(n) + s[11..];
    SpacedSlices(s, n);
    SpacedDateShape(s, n);
    CanonicalHalves(s);
    CanonicalDateRest(s);
    DatePrefixDecides(s, s');
    SpacedClock(s, n);
    SameHalves(s, s');
  }

  /** A fraction after the seconds sets the nanoseconds and nothing else. */
  lemma AfterHourFraction(hour: int, w: string, f: string)
    requires MinuteSecondShape(w) && |w| == 6 && AllDigits(f) && 1 <= |f| <= 9
    ensures AfterHour(hour, w + "." + f) ==
              if AfterHour(hour, w).Ok? then Ok(AfterHour(hour, w).value.(nanos := Nanos(f)))
              else AfterHour(hour, w)
  {
    AfterHourSlices(w, f);
    MinuteSecond(hour, w);
    MinuteSecond(hour, w + "." + f);
    FractionDigits(Value(w[4..6]), f);
  }

  lemma AfterHourSlices(w: string, f: string)
    requires MinuteSecondShape(w) && |w| == 6
    ensures var w' := w + "." + f;
            MinuteSecondShape(w') && w'[1..3] == w[1..3] && w'[4..6] == w[4..6] && w'[6..] == "." + f && w[6..] == ""
  {
    var w' := w + "." + f;
    assert w'[1..3] == w[1..3] && w'[4..6] == w[4..6];
  }

  lemma ClockFraction(v: string, f: string)
    requires ClockShape(v) && |v| == 8 && AllDigits(f) && 1 <= |f| <= 9
    ensures ClockFields(v + "." + f) ==
              if ClockFields(v).Ok? then Ok(ClockFields(v).value.(nanos := Nanos(f)))
              else ClockFields(v)
  {
    ClockSlices(v, f);
    ClockHalf(v);
    ClockHalf(v + "." + f);
    if Value(v[0..2]) <= 23 {
      AfterHourFraction(Value(v[0..2]), v[2..], f);
    }
  }

  lemma ClockSlices(v: string, f: string)
    requires ClockShape(v) && |v| == 8
    ensures var v' := v + "." + f;
            && ClockShape(v') && v'[0..2] == v[0..2] && v'[2..] == v[2..] + "." + f
            && MinuteSecondShape(v[2..]) && |v[2..]| == 6
  {
    var v' := v + "." + f;
    assert v'[0..2] == v[0..2] && v'[3..5] == v[3..5] && v'[6..8] == v[6..8];
    assert v[2..][1..3] == v[3..5] && v[2..][4..6] == v[6..8];
  }

  lemma FractionSlices(s: string, f: string)
    requires CanonicalShape(s)
    ensures (s + "." + f)[..10] == s[..10]
    ensures (s + "." + f)[10..] == Spaces(1) + (s[11..] + "." + f)
  {
    CanonicalHalves(s);
    assert (s + "." + f)[..10] == s[..10];
  }

  lemma FractionDateShape(s: string, f: string)
    requires CanonicalShape(s)
    ensures DateShape(s + "." + f)
  {
    var s' := s + "." + f;
    assert s'[0..4] == s[0..4] && s'[5..7] == s[5..7] && s'[8..10] == s[8..10];
  }

  lemma FractionClock(v: string, f: string)
    requires ClockShape(v) && |v| == 8 && v[0] != ' ' && AllDigits(f) && 1 <= |f| <= 9
    ensures var c := ParseClock(Spaces(1) + v);
            ParseClock(Spaces(1) + (v + "." + f)) ==
              if c.Ok? then Ok(c.value.(nanos := Nanos(f))) else c
  {
    AfterSpace(v);
    AfterSpace(v + "." + f);
    ClockFraction(v, f);
  }

  /** The clock half starts with the layout's space. */
  lemma AfterSpace(v: string)
    requires |v| == 0 || v[0] != ' '
    ensures ParseClock(Spaces(1) + v) == ClockFields(v)
  {
    SkipSpaces(1, v);
  }

  /** A fraction of one to nine digits after the seconds is accepted and
      read as nanoseconds; it changes nothing else. */
  lemma LenientFraction(s: string, f: string)
    requires CanonicalShape(s) && AllDigits(f) && 1 <= |f| <= 9
    ensures Parse(s + "." + f) == if Parse(s).Ok? then Ok(Parse(s).value.(nanos := Nanos(f)))
                                  else Parse(s)
  {
    var s' := s + "." + f;
    CanonicalHalves(s);
    FractionSlices(s, f);
    FractionDateShape(s, f);
    CanonicalDateRest(s);
    DatePrefixDecides(s, s');
    FractionClock(s[11..], f);
    OtherNanos(s, s', Nanos(f));
  }

  lemma FractionDigits(second: int, f: string)
    requires AllDigits(f) && 1 <= |f| <= 9
    ensures Fraction(second, "." + f) == Seconds(second, Nanos(f), "")
  {
    var w := "." + f;
    assert w[1..] == f;
    DigitRunAll(f);
    assert w[1..1 + |f|] == f;
  }

  lemma {:induction false} DigitRunAll(f: string)
    requires AllDigits(f)
    ensures DigitRun(f) == |f|
    decreases |f|
  {
    if |f| > 0 {
      DigitRunAll(f[1..]);
    }
  }

  /** The error the parser reports for fields that spell a time it cannot
      hold: the first field out of range in the order the parser reads them
      (month, hour, minute, second), and the day only after everything
      else, since it depends on the month and the year. */
  function RangeError(t: DateTime): (e: Option<ParseError>)
    ensures e.Some? ==> e.value.OutOfRange?
  {
    if !(1 <= t.month <= 12) then Some(OutOfRange("month"))
    else if !(0 <= t.hour <= 23) then Some(OutOfRange("hour"))
    else if !(0 <= t.minute <= 59) then Some(OutOfRange("minute"))
    else if !(0 <= t.second <= 59) then Some(OutOfRange("second"))
    else if !(1 <= t.day <= DaysIn(t.month, t.year)) then Some(OutOfRange("day"))
    else None
  }

  /** For fields of the parser's own ranges, no range error means a time. */
  lemma RangeErrorExactlyInvalid(t: DateTime)
    requires 0 <= t.nanos < 1_000_000_000
    ensures RangeError(t).None? <==> Valid(t)
  {
  }

  /** The clock fields of a `HH:MM:SS` text with nothing after it. */
  lemma ClockOfEight(v: string)
    requires ClockShape(v) && |v| == 8
    ensures ClockFields(v) ==
              var h, m, sec := Value(v[0..2]), Value(v[3..5]), Value(v[6..8]);
              if h > 23 then Err(OutOfRange("hour"))
              else if m > 59 then Err(OutOfRange("minute"))
              else if sec > 59 then Err(OutOfRange("second"))
              else Ok(ClockPart(h, m, sec, 0, ""))
  {
    ClockHalf(v);
    var w := v[2..];
    assert w[1..3] == v[3..5] && w[4..6] == v[6..8] && w[6..] == "";
    MinuteSecond(Value(v[0..2]), w);
  }

  /** The clock half of a canonically shaped text, after its space. */
  lemma CanonicalClock(s: string)
    requires CanonicalShape(s)
    ensures ParseClock(Spaces(1) + s[11..]) ==
              var h, m, sec := Value(s[11..13]), Value(s[14..16]), Value(s[17..19]);
              if h > 23 then Err(OutOfRange("hour"))
              else if m > 59 then Err(OutOfRange("minute"))
              else if sec > 59 then Err(OutOfRange("second"))
              else Ok(ClockPart(h, m, sec, 0, ""))
  {
    CanonicalHalves(s);
    SkipSpaces(1, s[11..]);
    var v := s[11..];
    assert v[0..2] == s[11..13] && v[3..5] == s[14..16] && v[6..8] == s[17..19];
    ClockOfEight(v);
  }

  /** On a canonically shaped text the parser yields the fields it spells
      out, or else exactly the error `RangeError` names for them. */
  lemma CanonicalErrors(s: string)
    requires CanonicalShape(s)
    ensures Parse(s) == match RangeError(FieldsOf(s))
                        case Some(e) => Err(e)
                        case None => Ok(FieldsOf(s))
  {
    CanonicalDate(s);
    CanonicalClock(s);
    ErrorsFromHalves(s, FieldsOf(s), Spaces(1) + s[11..]);
  }

  /** The parser's verdict from what its two halves yield on fields `t`. */
  lemma ErrorsFromHalves(s: string, t: DateTime, rest: string)
    requires t.nanos == 0 && t.offset == 0
    requires ParseDate(s) == if 1 <= t.month <= 12 then Ok(DatePart(t.year, t.month, t.day, rest))
                             else Err(OutOfRange("month"))
    requires ParseClock(rest) == if !(0 <= t.hour <= 23) then Err(OutOfRange("hour"))
                                 else if !(0 <= t.minute <= 59) then Err(OutOfRange("minute"))
                                 else if !(0 <= t.second <= 59) then Err(OutOfRange("second"))
                                 else Ok(ClockPart(t.hour, t.minute, t.second, 0, ""))
    ensures Parse(s) == match RangeError(t)
                        case Some(e) => Err(e)
                        case None => Ok(t)
  {
  }

  /** The date half of a canonically shaped text. */
  lemma CanonicalDate(s: string)
    requires CanonicalShape(s)
    ensures ParseDate(s) == if 1 <= Value(s[5..7]) <= 12
                            then Ok(DatePart(Value(s[0..4]), Value(s[5..7]), Value(s[8..10]), Spaces(1) + s[11..]))
                            else Err(OutOfRange("month"))
  {
    CanonicalHalves(s);
    DateHalf(s);
  }

  /** Text after the seconds that does not start a fraction is rejected as
      extra text, after every field has been read and range-checked. */
  lemma TrailingText(s: string, r: string)
    requires CanonicalShape(s) && Parse(s).Ok? && |r| > 0
    requires !(|r| >= 2 && (r[0] == '.' || r[0] == ',') && IsDigit(r[1]))
    ensures Parse(s + r) == Err(ExtraText(r))
  {
    var s' := s + r;
    CanonicalHalves(s);
    TrailingSlices(s, r);
    TrailingDateShape(s, r);
    CanonicalDateRest(s);
    DatePrefixDecides(s, s');
    CanonicalErrors(s);
    TrailingClock(s[11..], r);
  }

  lemma TrailingSlices(s: string, r: string)
    requires CanonicalShape(s)
    ensures (s + r)[..10] == s[..10]
    ensures (s + r)[10..] == Spaces(1) + (s[11..] + r)
  {
    CanonicalHalves(s);
    assert (s + r)[..10] == s[..10];
  }

  lemma TrailingDateShape(s: string, r: string)
    requires CanonicalShape(s)
    ensures DateShape(s + r)
  {
    var s' := s + r;
    assert s'[0..4] == s[0..4] && s'[5..7] == s[5..7] && s'[8..10] == s[8..10];
  }

  lemma TrailingClock(v: string, r: string)
    requires ClockShape(v) && |v| == 8 && v[0] != ' '
    requires !(|r| >= 2 && (r[0] == '.' || r[0] == ',') && IsDigit(r[1]))
    ensures ParseClock(Spaces(1) + (v + r)) ==
              var c := ParseClock(Spaces(1) + v);
              if c.Ok? then Ok(c.value.(rest := r)) else c
  {
    var v' := v + r;
    SkipSpaces(1, v);
    SkipSpaces(1, v');
    assert v'[0..2] == v[0..2] && v'[3..5] == v[3..5] && v'[6..8] == v[6..8];
    assert v'[2..][1..3] == v[3..5] && v'[2..][4..6] == v[6..8] && v'[2..][6..] == r;
    ClockHalf(v');
    ClockOfEight(v);
    if Value(v[0..2]) <= 23 {
      MinuteSecond(Value(v[0..2]), v'[2..]);
    }
  }

  /** February 29th of a canonically shaped text with an in-range clock
      parses exactly in leap years. */
  lemma LeapDay(s: string)
    requires CanonicalShape(s) && Value(s[5..7]) == 2 && Value(s[8..10]) == 29
    requires Value(s[11..13]) <= 23 && Value(s[14..16]) <= 59 && Value(s[17..19]) <= 59
    ensures Parse(s).Ok? <==> IsLeap(Value(s[0..4]))
  {
    ParseCanonical(s);
  }

  /** A one-digit hour is accepted where the layout has `15`, and reads as
      the same hour written with a leading zero. */
  lemma LenientHour(s: string)
    requires CanonicalShape(s) && s[11] == '0'
    ensures Parse(s[..11] + s[12..]) == Parse(s)
  {
    var s' := s[..11] + s[12..];
    CanonicalHalves(s);
    HourSlices(s);
    HourDateShape(s);
    CanonicalDateRest(s);
    DatePrefixDecides(s, s');
    OneDigitHour(s[11..]);
    SameHalves(s, s');
  }

  lemma HourSlices(s: string)
    requires CanonicalShape(s)
    ensures (s[..11] + s[12..])[..10] == s[..10]
    ensures (s[..11] + s[12..])[10..] == Spaces(1) + s[12..]
  {
    CanonicalHalves(s);
    assert (s[..11] + s[12..])[..10] == s[..10];
  }

  lemma HourDateShape(s: string)
    requires CanonicalShape(s)
    ensures DateShape(s[..11] + s[12..])
  {
    var s' := s[..11] + s[12..];
    assert s'[0..4] == s[0..4] && s'[5..7] == s[5..7] && s'[8..10] == s[8..10];
  }

  lemma OneDigitHour(v: string)
    requires ClockShape(v) && v[0] == '0'
    ensures ParseClock(Spaces(1) + v[1..]) == ParseClock(Spaces(1) + v)
  {
    assert IsDigit(v[0..2][1]) && v[1] == v[0..2][1];
    SkipSpaces(1, v);
    SkipSpaces(1, v[1..]);
    assert v[1..][1] == ':' && v[1..][1..] == v[2..];
    assert Value(v[0..2]) == DigitValue(v[1]) by {
      assert v[0..2][..1] == [v[0]];
      assert Value([v[0]]) == 0 by {
        assert [v[0]][..0] == [];
      }
    }
    ClockHalf(v);
  }

  /** A time read with a one-digit hour formats with the hour's leading
      zero restored: the text is not given back as it was read. */
  lemma OneDigitHourReformatted(s: string)
    requires CanonicalShape(s) && s[11] == '0' && Parse(s).Ok?
    ensures Parse(s[..11] + s[12..]).Ok? && Format(Parse(s[..11] + s[12..]).value) == s
    ensures Format(Parse(s[..11] + s[12..]).value) != s[..11] + s[12..]
  {
    LenientHour(s);
    FormatParseRoundTrip(s);
    assert |s[..11] + s[12..]| == 18;
  }

  /** The year must be four digits. */
  lemma YearNotFourDigits(s: string)
    requires |s| < 4 || !AllDigits(s[..4])
    ensures Parse(s) == Err(CannotParse("2006"))
  {
  }

  /** A fifth year digit, or any other character where the layout has a
      dash, is a mismatch of that dash. */
  lemma YearDashMissing(s: string)
    requires |s| >= 5 && AllDigits(s[..4]) && s[4] != '-'
    ensures Parse(s) == Err(CannotParse("-"))
  {
    assert IsDigit(s[..4][0]);
  }

  /** A date half followed by anything but a space is a mismatch of the
      layout's space, reported once the month has been range-checked. */
  lemma SpaceMissing(s: string)
    requires DateShape(s) && 1 <= Value(s[5..7]) <= 12 && |s| > 10 && s[10] != ' '
    ensures Parse(s) == Err(CannotParse(" "))
  {
    DateHalf(s);
  }
}
